=== FILE: README.md ===
# HatenaBlogTools core, modelled in Dafny

HatenaBlogTools is a set of command-line tools for Hatena Blog's AtomPub interface. This project
models four parts of it and proves properties about each:

- **The entry editors of the replace tool** (`ContentEditors`). The literal editor rewrites every
  ordinal occurrence of a text with `string.Replace` and decides "modified" by a length test plus
  an ordinal comparison. The regular-expression editor rewrites every match through a match
  evaluator and counts the entry as modified as soon as the evaluator runs. Both rewrite only the
  entry's content and call `actionIfModified(original, new)` once when modified.
- **The option handling of the replace tool's `Main`** (`ReplaceTool`). It covers the shared
  credential options and the tool's own options (`-from`, `-to`, `-regex`, `-diff-cmd`,
  `-diff-cmd-args`, `-v`, `-n`). The empty `-from` is refused. Then it picks the editor and the
  diff settings, checks the diff tool, picks the post mode and logs in.
- **The shared command-line base** (`CliBase`). `ParseCommonCommandLineArgs` scans the
  arguments, validates the three credential values and passes the other arguments on. `Login`
  accepts only HTTP status 200.
- **The export formatters of the dump tool.** `MovableType` covers the Movable Type
  import/export text, including `ToDateString`'s `MM/dd/yyyy hh:mm:ss tt` dates and the quoted TAGS
  line. `Blogger` covers the Blogger Atom feed, modelled as an element tree.

Every operation has a partner, and a lemma over all inputs connects the two:

- the literal replace is shown equal to an independent reference decomposition of the text;
- the regular-expression replace is shown equal to the unmatched stretches of the text, located
  position by position, interleaved with the evaluator's replacements;
- the date string, the Movable Type export and the Blogger feed each have a reader, and reading
  back yields what was written;
- the command line is parsed back from the arguments that encode it.

`Wrappers` (Option/Result), `Strings` (containment, join/split, zero-padded decimals) and `Entries`
(the posted-entry record, dates) hold the shared definitions.

Things outside the program are parameters of the model:

- the regular-expression engine is an ordered list of non-overlapping matches plus an
  expansion function;
- the machine's local time zone is a `toLocal` function;
- the answer of the diff tool's availability probe is a boolean;
- the login response is its status code.

The source disagrees with itself in two places:

- `cli/ReplaceContentText/MainClass.cs` calls `ParseCommonCommandLineArgs(ref args, out client)`
  and `Login(client)`, but `cli/CliBase.cs` declares `ParseCommonCommandLineArgs(ref args, out
  credential)` and `Login(credential, out client)`. The model follows `cli/CliBase.cs`.
- The Movable Type formatter reads `entry.Updated` and the Blogger formatter reads
  `entry.DateUpdated`. The model has one update time.

## Model

| member | source | states |
|---|---|---|
| `ContentEditors.EditLiteral` | cli/ReplaceContentText/MainClass.cs:145-157 | Writes only the content. The new content is the text between leftmost non-overlapping occurrences of `from`, joined by `to`. `modified` holds exactly when the content changed, which is exactly when `from` occurs and differs from `to`. The callback runs with (original, new) exactly when modified. |
| `ContentEditors.ReplaceAll` | cli/ReplaceContentText/MainClass.cs:149 | Ordinal `string.Replace` on a non-empty `from`: a text in which `from` does not occur comes back unchanged, and so does any text when `to` is `from`. |
| `ContentEditors.Pieces` | cli/ReplaceContentText/MainClass.cs:149 | The reference decomposition: no occurrence of `from` starts inside a piece or straddles into the next cut, and rejoining the pieces with `from` gives the text back. |
| `ContentEditors.ReplaceAllIsJoinOfPieces` | cli/ReplaceContentText/MainClass.cs:149 | The left-to-right scan of `string.Replace` equals the reference pieces joined by the replacement. |
| `ContentEditors.OccursIffCut` | cli/ReplaceContentText/MainClass.cs:149 | `from` occurs in the text if and only if the decomposition has at least one cut. |
| `ContentEditors.ReplaceAllChangesIff` | cli/ReplaceContentText/MainClass.cs:149-153 | Replace changes the text if and only if `from` occurs in it and `to` differs from `from`: both directions of the `modified` test. |
| `ContentEditors.Substitute` | cli/ReplaceContentText/MainClass.cs:175-179 | `Regex.Replace` with an evaluator calls the evaluator once per match. |
| `ContentEditors.SubstituteIsInterleave` | cli/ReplaceContentText/MainClass.cs:175-179 | The replaced text is the stretches before, between and after the matches, copied unchanged, with the evaluator's result for each match between them, in match order. |
| `ContentEditors.SubstituteOne` | cli/ReplaceContentText/MainClass.cs:175-179 | With one match, the result is the text before it, the evaluator's result and the text after it. |
| `ContentEditors.SubstituteIdentity` | cli/ReplaceContentText/MainClass.cs:175-179 | When every match expands to the text it matched, the replace returns its input. |
| `ContentEditors.EditRegex` | cli/ReplaceContentText/MainClass.cs:170-183 | Writes only the content. `modified` holds exactly when there was at least one match, and with no match the content is unchanged. The new content is the unmatched stretches of the old content interleaved with the evaluator's result for each match. The callback runs with (original, new) exactly when modified. |
| `ContentEditors.RegexModifiedWithoutChange` | cli/ReplaceContentText/MainClass.cs:172-182 | A match that expands to itself leaves the entry as it was, yet reports it modified and fires the callback with identical before and after texts. |
| `CliBase.ValidateCredential` | cli/CliBase.cs:69-84 | The missing-hatena-id, missing-blog-id and missing-api-key errors each arise exactly when that value is null or empty and the earlier ones are given. Success, with the three values, arises exactly when all are given. |
| `CliBase.ParseCommonArgs` | cli/CliBase.cs:34-89 | On success the credential's three values are non-empty. The remaining arguments are a subsequence of the input, in order, and contain no credential option or help flag. |
| `CliBase.ScanCommon` | cli/CliBase.cs:43-67 | The argument loop fails only on a help flag or on a credential option missing its value. On success the kept arguments extend those already kept, by at most one per input argument. |
| `CliBase.TrailingOptionFails` | cli/CliBase.cs:45-55 | A credential option given as the last argument, with no value after it, ends the scan with the missing-value error for that option. |
| `CliBase.ParseTrailingOptionFails` | cli/CliBase.cs:34-67 | `ParseCommonCommandLineArgs` fails with that missing-value error when the last argument is a credential option. |
| `CliBase.ScanFromState` | cli/CliBase.cs:43-67 | The scan is compositional: scanning from a state equals scanning from nothing, then letting each value found override and appending the kept arguments. |
| `CliBase.ScanKeepsSubsequence` | cli/CliBase.cs:43-67 | A successful scan keeps a subsequence of its input, none of it a token the scan acts on. |
| `CliBase.LaterOccurrenceWins` | cli/CliBase.cs:45-55 | A credential option given again later overrides the earlier value: the earlier pair changes nothing. |
| `CliBase.ScanPassesThrough` | cli/CliBase.cs:63-65 | Arguments that are no credential option or help flag pass through unchanged and in order. |
| `CliBase.ParseCommonArgsRoundTrip` | cli/CliBase.cs:34-89 | Parsing the arguments that encode a valid credential, followed by other arguments, gives back that credential and those arguments. |
| `CliBase.Login` | cli/CliBase.cs:102-126 | A client is produced if and only if the status is 200, and it holds the given credential; any other status is reported back. |
| `ReplaceTool.ScanToolOptions` | cli/ReplaceContentText/MainClass.cs:67-97 | The tool's option loop fails only on `-from`, `-to`, `-diff-cmd` or `-diff-cmd-args` missing its value. A switch once set stays set, and a `-from` or `-to` once given stays given. |
| `ReplaceTool.ToolLastValueWins` | cli/ReplaceContentText/MainClass.cs:67-87 | A `-from`, `-to`, `-diff-cmd` or `-diff-cmd-args` given again later overwrites the earlier value and leaves everything else as it was. |
| `ReplaceTool.ToolSkipsOther` | cli/ReplaceContentText/MainClass.cs:67-97 | An argument that is none of the tool's options is skipped without effect. |
| `ReplaceTool.ToolSkipsOthers` | cli/ReplaceContentText/MainClass.cs:67-97 | Arguments that are none of the tool's options leave the scan's result unchanged. |
| `ReplaceTool.ToolTrailingOptionFails` | cli/ReplaceContentText/MainClass.cs:69-87 | One of the tool's value options given as the last argument ends the scan with the missing-value error for that option. |
| `ReplaceTool.Configure` | cli/ReplaceContentText/MainClass.cs:99-124 | Fails, with the missing-replace-text error, exactly when `-from` is absent or empty. On success the editor works on that text, with the `-to` text as replacement or the empty string when `-to` is absent. The pattern editor is chosen exactly under `-regex`. Diff output is quiet exactly without `-v`, with the given diff command and arguments. The post mode is "never" exactly under `-n`, and never "always". |
| `ReplaceTool.Main` | cli/ReplaceContentText/MainClass.cs:52-133 | A run starts only when the diff tool is available and login returned 200. An unavailable diff tool ends the run before login. A started run has a non-empty search text, non-empty credential values and a post mode other than "always". |
| `ReplaceTool.FlagsScan` | cli/ReplaceContentText/MainClass.cs:77-95 | The flags `-regex`, `-v` and `-n` set exactly their own switches. |
| `ReplaceTool.ToolScanRoundTrip` | cli/ReplaceContentText/MainClass.cs:67-97 | Scanning the tool's options recovers `from`, `to` (absent when `-to` was not given) and the three switches. |
| `ReplaceTool.MainRoundTrip` | cli/ReplaceContentText/MainClass.cs:52-133 | End to end, a credential plus options gives the configured session. It uses the literal or pattern editor over `from` and `to`, or the empty string when `-to` is absent. Diff output is quiet unless `-v`, under the two fixed labels. The post mode is "never" exactly under `-n` and "if modified" otherwise. |
| `MovableType.ToDateString` | cli/DumpAllEntries/MovableTypeFormatter.cs:22-23 | The date string has 22 characters, with the separators of `MM/dd/yyyy hh:mm:ss tt` at their positions. It ends in "AM" exactly before noon and in "PM" exactly from noon on. |
| `MovableType.DateStringLayout` | cli/DumpAllEntries/MovableTypeFormatter.cs:22-23 | Each field of the date string sits at its fixed position: two-digit month, day, 12-hour hour, minute and second, a four-digit year, and the AM/PM designator. |
| `MovableType.ToDateStringHour` | cli/DumpAllEntries/MovableTypeFormatter.cs:22-23 | Hour 0 is written "12 AM" and hours 1 to 11 keep their number with "AM". Hour 12 is "12 PM" and hours 13 to 23 lose 12 and take "PM". |
| `MovableType.DateStringRoundTrip` | cli/DumpAllEntries/MovableTypeFormatter.cs:22-23 | The date string loses nothing: the parser reads every valid date back. |
| `MovableType.ToDateStringExamples` | tests/Smdn.HatenaBlogTools.Cli.DumpAllEntries/Smdn.HatenaBlogTools/MovableTypeFormatterTests.cs:13-21 | The unit-test vectors for `ToDateString`, plus midnight and noon. |
| `MovableType.Quote` | cli/DumpAllEntries/MovableTypeFormatter.cs:51 | A tag is changed exactly when it holds a space, and then it is the tag wrapped in one double quote on each side. |
| `MovableType.QuoteRoundTrip` | cli/DumpAllEntries/MovableTypeFormatter.cs:49-51 | Unquoting restores every plain tag, and a plain tag stays non-empty and free of commas once quoted. |
| `MovableType.TagsValueSplits` | cli/DumpAllEntries/MovableTypeFormatter.cs:49-53 | The TAGS value is the tags as `Quote` writes them: split at commas, the value of comma-free tags gives each quoted tag back, in order, and no tags give the empty value. |
| `MovableType.TagsValueExample` | cli/DumpAllEntries/MovableTypeFormatter.cs:49-53 | Of the tags `a b` and `c`, only the first is quoted in the TAGS value. |
| `MovableType.TagsRoundTrip` | cli/DumpAllEntries/MovableTypeFormatter.cs:49-53 | Splitting the TAGS value at commas and unquoting gives back the tags, in order, duplicates included. |
| `MovableType.Block` | cli/DumpAllEntries/MovableTypeFormatter.cs:35-86 | One entry's block fails if and only if its location is shorter than the `/entry/` prefix that `Substring(7)` drops, and the error names that location. A block has 10 to 12 lines, opens with the AUTHOR line and closes with the entry delimiter. |
| `MovableType.Format` | cli/DumpAllEntries/MovableTypeFormatter.cs:25-90 | The export fails if and only if some entry's location is too short for `Substring(7)`. |
| `MovableType.FormatConcatenates` | cli/DumpAllEntries/MovableTypeFormatter.cs:31-87 | The output for two runs of entries is the first run's output followed by the second's. |
| `MovableType.BlockRoundTrip` | cli/DumpAllEntries/MovableTypeFormatter.cs:35-86 | For an entry with a writable location and plain tags, reading its block back yields what the block records. That is the author, the title and the BASENAME without `/entry/`. It also gives the status, the DATE text of the local update time, the tags and the formatted body, and then the position after the entry delimiter. |
| `MovableType.RecordDateParses` | cli/DumpAllEntries/MovableTypeFormatter.cs:46-47 | A record has a DATE value exactly when the entry has an update time, and that value parses back to the local update time. |
| `MovableType.RenderAllRoundTrip` | cli/DumpAllEntries/MovableTypeFormatter.cs:31-87 | When each entry's lines are non-empty and read back as its record wherever they sit, the lines of all entries read back as all records, in input order. |
| `MovableType.FormatRoundTrip` | cli/DumpAllEntries/MovableTypeFormatter.cs:25-90 | A file of writable entries with plain tags reads back as one record per entry, in input order. |
| `MovableType.FormatSingleEntryTest` | tests/Smdn.HatenaBlogTools.Cli.DumpAllEntries/Smdn.HatenaBlogTools/MovableTypeFormatterTests.cs:59-98 | The single-entry unit test: BASENAME without `/entry/`, the midnight DATE written as 12 AM, unquoted tags joined by commas, and the formatted body. |
| `MovableType.FormatMultipleEntriesTest` | tests/Smdn.HatenaBlogTools.Cli.DumpAllEntries/Smdn.HatenaBlogTools/MovableTypeFormatterTests.cs:100-147 | The multiple-entry unit test: two blocks without BASENAME and DATE, with Publish and Draft status, for any time zone. |
| `MovableType.TextConcatenates` | cli/DumpAllEntries/MovableTypeFormatter.cs:27-29 | With every line ended by "\n", the text of the whole output is the text of each block in turn. |
| `Blogger.DirectFields` | cli/DumpAllEntries/BloggerFormatter.cs:49-115 | An `id`, `published` or `updated` child is there exactly when the entry has that value, and `title` and `content` are there once each. Looked up by name, they hold the entry's id text and dates, its title typed `text` and its formatted content typed `html`. |
| `Blogger.NestedFields` | cli/DumpAllEntries/BloggerFormatter.cs:56-96 | An `author` child is there exactly for a non-empty author, and its `name` holds the author; with none the author reads as empty. An `app:control` child is there exactly for a draft, and `app:control/app:draft` reads "yes" exactly for a draft. |
| `Blogger.CategoryFields` | cli/DumpAllEntries/BloggerFormatter.cs:97-109 | There is one category child per label plus one. The first is the post-kind category, and the label categories are exactly the entry's categories, in order. |
| `Blogger.LookupPart` | cli/DumpAllEntries/BloggerFormatter.cs:45-116 | In children written as uniformly named groups with distinct names, looking up a group's name finds exactly that group. |
| `Blogger.EntryOrder` | cli/DumpAllEntries/BloggerFormatter.cs:45-117 | An entry's children come grouped by name in the formatter's order: id, author, published, updated, title, app:control, the categories, content. No other child is written. |
| `Blogger.EntryRoundTrip` | cli/DumpAllEntries/BloggerFormatter.cs:45-117 | Reading an entry element back yields the entry's id, author, dates, title, draft flag, post kind, labels and HTML body. The reader takes the title only as `type="text"` and the body only as `type="html"`. |
| `Blogger.UntypedRejected` | cli/DumpAllEntries/BloggerFormatter.cs:81-85 | An entry element whose title is not typed `text`, or whose content is not typed `html`, does not read back as a post. |
| `Blogger.EntriesRoundTrip` | cli/DumpAllEntries/BloggerFormatter.cs:45-139 | The feed's entry elements read back as one post per input entry, in input order. |
| `Blogger.Format` | cli/DumpAllEntries/BloggerFormatter.cs:43-141 | The document is XML 1.0 in UTF-8 with an Atom `feed` root declaring the `app` namespace. The feed has one `title` exactly when the blog title is non-empty, one `generator`, and one `entry` per input entry. The children come in that order: title, generator, entries. |
| `Blogger.FormatRoundTrip` | cli/DumpAllEntries/BloggerFormatter.cs:43-141 | Reading the document back yields four things. The blog title is empty when none or an empty one was given. Then come the `Blogger` generator and the `xmlns:app` declaration. Last is one post per entry, in order. |

## Left out

- The batch edit `HatenaBlogFunctions.EditAllEntryContent`, which fetches, edits, diffs and posts entries, is not part of this model. Neither are `DiffGenerator`, the AtomPub HTTP client, `InitializeHttpsServicePoint` or `CreateClient`'s user agent: they are I/O. The model stops where `Main` hands over to the batch edit.
- The regular-expression engine is not modelled. That covers .NET `Regex` matching under `RegexOptions.Multiline` and `Match.Result`'s `$` substitutions. Matches and their expansion are parameters, and a pattern that the `Regex` constructor rejects is not modelled.
- `Usage` prints help and calls `Environment.Exit`. It is modelled as an error outcome that ends argument handling, and its text is not modelled.
- `args[++i]` past the last argument throws `IndexOutOfRangeException`. It is modelled as the `MissingValue` error, not as an exception.
- `ContentEditors.ReplaceAll`: requires a non-empty `from`. `string.Replace` throws on an empty one, and `Main` never passes one (MainClass.cs:99-102).
- `MovableType.TagsRoundTrip`: requires plain tags, that is non-empty and without commas or double quotes. The source quotes only tags containing a space, so a tag with a comma or a double quote is written unescaped. Such a tag does not come back as the same tag.
- `MovableType.FormatRoundTrip`: states the round trip for plain tags only, for the same reason.
- `MovableType.BlockRoundTrip`: requires plain tags too (through `Exportable`), for the same reason.
- `MovableType.TagsValueSplits`: requires tags without commas, because a comma inside a tag is written unescaped and splits it.
- `MovableType.FormatRoundTrip`: the record keeps the DATE value as text. That this text parses back to the local update time is stated apart, by `MovableType.RecordDateParses`.
- `MovableType.FormatRoundTrip`: reads back the sequence of `WriteLine` calls, not the text. A title, author or body holding a line break spans several lines of the text, and the format has no escape for it.
- Movable Type output is modelled as lines ended by "\n". The UTF-8 encoding, the byte-order mark and the stream flush are left out.
- When `Substring(7)` throws on a later entry, the earlier blocks have already gone to the writer. The model returns a failure for the whole export instead.
- `LocalDateTime` depends on the machine's time zone and is the `toLocal` parameter. `MovableType.FormatSingleEntryTest` therefore assumes a `toLocal` that reads the test's +09:00 update time as its own wall-clock time, as on a machine at +09:00.
- `MovableType.FormatSingleEntryTest`: the AUTHOR text is given as the entry's author, because how `PostedEntry` joins its authors is not part of this model.
- `MovableType.FormatMultipleEntriesTest`: the expected AUTHOR and TAGS lines keep the trailing space that the unit test trims before comparing.
- The `DateTimeOffset` vectors of the unit tests (MovableTypeFormatterTests.cs:28-45) call an overload that MovableTypeFormatter.cs does not declare, so they are not restated.
- The `RETRIEVE_COMMENTS` block (MovableTypeFormatter.cs:67-81) is compiled out and not modelled.
- The Blogger document is an element tree. Its serialization to XML bytes is not modelled, and neither is the text `XElement` gives a `DateTimeOffset` (an XML date-time) or a `Uri` (its `ToString()`). Dates are kept as values and an id as its text.
- Null strings of the source are the empty string here. The formatters write a null and an empty title, author or content alike. Elsewhere a null throws, and the model does not express that. Both editors throw on a null content (`Replace` at MainClass.cs:149 and MainClass.cs:175), where the model edits the empty string and reports no modification. `tag.Contains(" ")` (MovableTypeFormatter.cs:51) and `new XAttribute("term", null)` throw on a null category, where the model writes an empty tag or label.
- How `PostedEntry` derives `Author` from its authors is not part of this model; `author` is the entry's given text.

=== FILE: blogger.dfy ===
/**
 * The Blogger export format: an Atom feed document whose entries Blogger's importer reads as
 * posts. The document is modelled as an element tree; its serialization to XML text is not.
 */
module Blogger {
  import opened Wrappers
  import opened Entries

  /** The XML namespaces the document uses; attributes such as `type` are in no namespace. */
  datatype Namespace = NoNamespace | Atom | App | Xmlns

  /** The namespace names: Atom's from section 1.2 of RFC 4287, the publishing protocol's from RFC 5023. */
  function NamespaceUri(ns: Namespace): string {
    match ns
    case NoNamespace => ""
    case Atom => "http://www.w3.org/2005/Atom"
    case App => "http://www.w3.org/2007/app"
    case Xmlns => "http://www.w3.org/2000/xmlns/"
  }

  datatype Name = Name(ns: Namespace, local: string)

  datatype Attribute = Attribute(name: Name, value: string)

  /** What an element holds: nothing, a text node, a date (written as an XML date-time), or child elements. */
  datatype Content = Empty | Text(text: string) | Time(stamp: Timestamp) | Children(children: seq<Element>)

  datatype Element = Element(name: Name, attributes: seq<Attribute>, content: Content)

  /** An XML document with its declaration's version and encoding. */
  datatype Document = Document(version: string, encoding: string, root: Element)

  function AtomName(local: string): Name {
    Name(Atom, local)
  }

  function Plain(local: string): Name {
    Name(NoNamespace, local)
  }

  const KindScheme := "http://schemas.google.com/g/2005#kind"
  const PostTerm := "http://schemas.google.com/blogger/2008/kind#post"
  const LabelScheme := "http://www.blogger.com/atom/ns#"
  const GeneratorName := "Blogger"

  function Leaf(name: Name, text: string): Element {
    Element(name, [], Text(text))
  }

  /** A `category` element with the given scheme and term. */
  function Category(scheme: string, term: string): Element {
    Element(AtomName("category"), [Attribute(Plain("scheme"), scheme), Attribute(Plain("term"), term)], Empty)
  }

  /** `./entry/id`, present only when the entry has an id. */
  function IdPart(e: Entry): seq<Element> {
    if e.id.Some? then [Leaf(AtomName("id"), e.id.value.text)] else []
  }

  /** `./entry/author/name`, present only when the author text is not null or empty. */
  function AuthorPart(e: Entry): seq<Element> {
    if e.author != "" then [Element(AtomName("author"), [], Children([Leaf(AtomName("name"), e.author)]))] else []
  }

  function DatePart(local: string, t: Option<Timestamp>): seq<Element> {
    if t.Some? then [Element(AtomName(local), [], Time(t.value))] else []
  }

  function TitleElement(title: string): Element {
    Element(AtomName("title"), [Attribute(Plain("type"), "text")], Text(title))
  }

  /** `./entry/app:control/app:draft` holding `yes`, present only for a draft. */
  function ControlPart(e: Entry): seq<Element> {
    if e.isDraft then [Element(Name(App, "control"), [], Children([Leaf(Name(App, "draft"), "yes")]))] else []
  }

  /** The kind category that marks the entry as a post rather than a comment or a template. */
  function KindCategory(): Element {
    Category(KindScheme, PostTerm)
  }

  /** One label category per category of the entry, in order. */
  function LabelPart(categories: seq<string>): seq<Element> {
    seq(|categories|, i requires 0 <= i < |categories| => Category(LabelScheme, categories[i]))
  }

  function ContentElement(html: string): Element {
    Element(AtomName("content"), [Attribute(Plain("type"), "html")], Text(html))
  }

  /** The category children: the kind category, then one label per category of the entry. */
  function CategoryPart(e: Entry): seq<Element> {
    [KindCategory()] + LabelPart(e.categories)
  }

  /** The children of an entry element, grouped by name, in the order the formatter writes them. */
  function EntryParts(e: Entry): seq<seq<Element>> {
    [IdPart(e), AuthorPart(e), DatePart("published", e.published), DatePart("updated", e.updated),
     [TitleElement(e.title)], ControlPart(e), CategoryPart(e), [ContentElement(e.formattedContent)]]
  }

  /** The name shared by the elements of each of an entry's parts. */
  const EntryPartNames: seq<Name> := [AtomName("id"), AtomName("author"), AtomName("published"), AtomName("updated"),
    AtomName("title"), Name(App, "control"), AtomName("category"), AtomName("content")]

  function Concat(ps: seq<seq<Element>>): seq<Element> {
    if |ps| == 0 then [] else ps[0] + Concat(ps[1..])
  }

  function EntryChildren(e: Entry): seq<Element> {
    Concat(EntryParts(e))
  }

  function EntryElement(e: Entry): Element {
    Element(AtomName("entry"), [], Children(EntryChildren(e)))
  }

  function EntryElements(entries: seq<Entry>): seq<Element> {
    seq(|entries|, i requires 0 <= i < |entries| => EntryElement(entries[i]))
  }

  /** `/feed/title`, present only when the blog title is not null or empty. */
  function FeedTitlePart(blogTitle: string): seq<Element> {
    if blogTitle != "" then [Leaf(AtomName("title"), blogTitle)] else []
  }

  /** The children of the feed element, grouped by name: the title, the generator, the entries. */
  function FeedParts(blogTitle: string, entries: seq<Entry>): seq<seq<Element>> {
    [FeedTitlePart(blogTitle), [Leaf(AtomName("generator"), GeneratorName)], EntryElements(entries)]
  }

  const FeedPartNames: seq<Name> := [AtomName("title"), AtomName("generator"), AtomName("entry")]

  /**
   * The Blogger document of a blog title and its entries: an XML 1.0 UTF-8 document whose `feed`
   * root declares the `app` prefix and holds a title only for a non-empty blog title and one
   * `entry` element per entry.
   */
  function Format(blogTitle: string, entries: seq<Entry>): (d: Document)
    ensures d.version == "1.0" && d.encoding == "utf-8" && d.root.name == AtomName("feed")
    ensures AttributeValue(d.root.attributes, Name(Xmlns, "app")) == Some(NamespaceUri(App))
    ensures |Named(ChildrenOf(d.root), AtomName("title"))| == (if blogTitle == "" then 0 else 1)
    ensures |Named(ChildrenOf(d.root), AtomName("generator"))| == 1
    ensures |Named(ChildrenOf(d.root), AtomName("entry"))| == |entries|
    ensures GroupedInOrder(ChildrenOf(d.root), [AtomName("title"), AtomName("generator"), AtomName("entry")])
  {
    FeedLookup(blogTitle, entries, 0);
    FeedLookup(blogTitle, entries, 1);
    FeedLookup(blogTitle, entries, 2);
    FeedOrder(blogTitle, entries);
    Document("1.0", "utf-8",
      Element(AtomName("feed"), [Attribute(Name(Xmlns, "app"), NamespaceUri(App))],
        Children(Concat(FeedParts(blogTitle, entries)))))
  }

  // ---------------------------------------------------------------------------------------------
  // Reading a document back: children are looked up by name, as an importer does, not by position.

  /** The elements of `cs` named `n`, in document order. */
  function Named(cs: seq<Element>, n: Name): (r: seq<Element>)
    ensures |r| <= |cs|
    ensures forall i :: 0 <= i < |r| ==> r[i].name == n
    ensures (forall i :: 0 <= i < |cs| ==> cs[i].name == n) ==> r == cs
    ensures (forall i :: 0 <= i < |cs| ==> cs[i].name != n) ==> r == []
  {
    if |cs| == 0 then []
    else if cs[0].name == n then [cs[0]] + Named(cs[1..], n)
    else Named(cs[1..], n)
  }

  /**
   * `cs` is its elements grouped by name, the groups in the order of `names`: every element bears
   * one of `names`, and all elements of an earlier name come before any of a later one.
   */
  predicate GroupedInOrder(cs: seq<Element>, names: seq<Name>) {
    cs == Concat(seq(|names|, k requires 0 <= k < |names| => Named(cs, names[k])))
  }

  function First(cs: seq<Element>, n: Name): Option<Element> {
    var m := Named(cs, n);
    if |m| == 0 then None else Some(m[0])
  }

  function AttributeValue(attrs: seq<Attribute>, n: Name): Option<string> {
    if |attrs| == 0 then None
    else if attrs[0].name == n then Some(attrs[0].value)
    else AttributeValue(attrs[1..], n)
  }

  function ChildrenOf(el: Element): seq<Element> {
    if el.content.Children? then el.content.children else []
  }

  function TextOf(el: Option<Element>): Option<string> {
    if el.Some? && el.value.content.Text? then Some(el.value.content.text) else None
  }

  function TimeOf(el: Option<Element>): Option<Timestamp> {
    if el.Some? && el.value.content.Time? then Some(el.value.content.stamp) else None
  }

  /** The text of an element whose `type` attribute is `kind`; `None` for a missing element or another type. */
  function TypedText(el: Option<Element>, kind: string): (r: Option<string>)
    ensures r.Some? <==> el.Some? && AttributeValue(el.value.attributes, Plain("type")) == Some(kind) && el.value.content.Text?
    ensures r.Some? ==> r == TextOf(el)
  {
    if el.Some? && AttributeValue(el.value.attributes, Plain("type")) == Some(kind) then TextOf(el) else None
  }

  /** What Blogger takes from an entry element. */
  datatype Post = Post(
    id: Option<string>,
    author: string,
    published: Option<Timestamp>,
    updated: Option<Timestamp>,
    title: string,
    isDraft: bool,
    isPost: bool,
    labels: seq<string>,
    body: string)

  /** Whether a category element marks a post. */
  predicate IsPostKind(c: Element) {
    AttributeValue(c.attributes, Plain("scheme")) == Some(KindScheme)
    && AttributeValue(c.attributes, Plain("term")) == Some(PostTerm)
  }

  /** The terms of the label categories among `cs`, in order. */
  function Labels(cs: seq<Element>): seq<string> {
    if |cs| == 0 then []
    else if AttributeValue(cs[0].attributes, Plain("scheme")) == Some(LabelScheme) then
      [AttributeValue(cs[0].attributes, Plain("term")).GetOr("")] + Labels(cs[1..])
    else Labels(cs[1..])
  }

  /**
   * The post an entry element describes; `None` when it is not an entry, or lacks a plain-text
   * title or an HTML content.
   */
  function ReadEntry(el: Element): Option<Post> {
    if el.name != AtomName("entry") || !el.content.Children? then None
    else
      var cs := el.content.children;
      var title :- TypedText(First(cs, AtomName("title")), "text");
      var body :- TypedText(First(cs, AtomName("content")), "html");
      var author := First(cs, AtomName("author"));
      var control := First(cs, Name(App, "control"));
      var categories := Named(cs, AtomName("category"));
      Some(Post(
        TextOf(First(cs, AtomName("id"))),
        if author.Some? then TextOf(First(ChildrenOf(author.value), AtomName("name"))).GetOr("") else "",
        TimeOf(First(cs, AtomName("published"))),
        TimeOf(First(cs, AtomName("updated"))),
        title,
        control.Some? && TextOf(First(ChildrenOf(control.value), Name(App, "draft"))) == Some("yes"),
        exists i :: 0 <= i < |categories| && IsPostKind(categories[i]),
        Labels(categories),
        body))
  }

  /** Reads every element with `read`, in order; `None` as soon as one cannot be read. */
  function ReadEach<T>(read: Element -> Option<T>, els: seq<Element>): Option<seq<T>> {
    if |els| == 0 then Some([])
    else
      var x :- read(els[0]);
      var xs :- ReadEach(read, els[1..]);
      Some([x] + xs)
  }

  /** What Blogger takes from the feed: the blog title, the generator, the app namespace declaration and the posts. */
  datatype Blog = Blog(title: string, generator: Option<string>, appNamespace: Option<string>, posts: seq<Post>)

  function ReadDocument(d: Document): Option<Blog> {
    var root := d.root;
    if root.name != AtomName("feed") || !root.content.Children? then None
    else
      var cs := root.content.children;
      var posts :- ReadEach(ReadEntry, Named(cs, AtomName("entry")));
      Some(Blog(
        TextOf(First(cs, AtomName("title"))).GetOr(""),
        TextOf(First(cs, AtomName("generator"))),
        AttributeValue(root.attributes, Name(Xmlns, "app")),
        posts))
  }

  /** What the formatter promises Blogger about one entry. */
  function PostOf(e: Entry): Post {
    Post(
      if e.id.Some? then Some(e.id.value.text) else None,
      e.author, e.published, e.updated, e.title, e.isDraft, true, e.categories, e.formattedContent)
  }

  // ---------------------------------------------------------------------------------------------
  // Round trip.

  lemma {:induction false} NamedConcat(a: seq<Element>, b: seq<Element>, n: Name)
    ensures Named(a + b, n) == Named(a, n) + Named(b, n)
    decreases |a|
  {
    if |a| == 0 {
      assert a + b == b;
    } else {
      assert (a + b)[1..] == a[1..] + b;
      NamedConcat(a[1..], b, n);
    }
  }

  /** Every element of a part carries the part's one name. */
  predicate AllNamed(cs: seq<Element>, n: Name) {
    forall i :: 0 <= i < |cs| ==> cs[i].name == n
  }

  /** Parts none of whose names is `n` contribute nothing to a lookup of `n`. */
  lemma {:induction false} NamedAbsent(ps: seq<seq<Element>>, names: seq<Name>, n: Name)
    requires |ps| == |names|
    requires forall j :: 0 <= j < |ps| ==> AllNamed(ps[j], names[j]) && names[j] != n
    ensures Named(Concat(ps), n) == []
    decreases |ps|
  {
    if |ps| > 0 {
      NamedConcat(ps[0], Concat(ps[1..]), n);
      NamedAbsent(ps[1..], names[1..], n);
    }
  }

  /**
   * In children grouped into uniformly named parts with distinct names, looking up the name of
   * part `k` finds exactly that part.
   */
  lemma {:induction false} LookupPart(ps: seq<seq<Element>>, names: seq<Name>, k: nat)
    requires |ps| == |names| && k < |ps|
    requires forall j :: 0 <= j < |ps| ==> AllNamed(ps[j], names[j])
    requires forall j :: 0 <= j < |ps| && j != k ==> names[j] != names[k]
    ensures Named(Concat(ps), names[k]) == ps[k]
    decreases k
  {
    if k == 0 {
      TakeHead(ps, names);
    } else {
      SkipHead(ps, names[0], names[k]);
      assert forall j :: 0 <= j < |ps| - 1 ==> ps[1..][j] == ps[j + 1] && names[1..][j] == names[j + 1];
      LookupPart(ps[1..], names[1..], k - 1);
    }
  }

  /** A first part named other than `n` contributes nothing to a lookup of `n`. */
  lemma SkipHead(ps: seq<seq<Element>>, first: Name, n: Name)
    requires |ps| > 0 && AllNamed(ps[0], first) && first != n
    ensures Named(Concat(ps), n) == Named(Concat(ps[1..]), n)
  {
    NamedConcat(ps[0], Concat(ps[1..]), n);
  }

  /** The first part is found whole when no later part shares its name. */
  lemma TakeHead(ps: seq<seq<Element>>, names: seq<Name>)
    requires |ps| == |names| > 0
    requires forall j :: 0 <= j < |ps| ==> AllNamed(ps[j], names[j])
    requires forall j :: 0 < j < |ps| ==> names[j] != names[0]
    ensures Named(Concat(ps), names[0]) == ps[0]
  {
    NamedConcat(ps[0], Concat(ps[1..]), names[0]);
    assert forall j :: 0 <= j < |ps| - 1 ==> ps[1..][j] == ps[j + 1] && names[1..][j] == names[j + 1];
    NamedAbsent(ps[1..], names[1..], names[0]);
  }

  lemma EntryPartsNamed(e: Entry)
    ensures |EntryParts(e)| == |EntryPartNames|
    ensures forall j :: 0 <= j < |EntryParts(e)| ==> AllNamed(EntryParts(e)[j], EntryPartNames[j])
    ensures forall j, k :: 0 <= j < k < |EntryPartNames| ==> EntryPartNames[j] != EntryPartNames[k]
  {
    var cs := CategoryPart(e);
    assert cs[0] == KindCategory();
    assert forall i :: 1 <= i < |cs| ==> cs[i] == LabelPart(e.categories)[i - 1];
  }

  /** Looking up any part name of an entry finds that part. */
  lemma EntryLookup(e: Entry, k: nat)
    requires k < |EntryPartNames|
    ensures Named(EntryChildren(e), EntryPartNames[k]) == EntryParts(e)[k]
  {
    EntryPartsNamed(e);
    LookupPart(EntryParts(e), EntryPartNames, k);
  }

  lemma {:induction false} LabelsOfLabelPart(categories: seq<string>)
    ensures Labels(LabelPart(categories)) == categories
    decreases |categories|
  {
    if |categories| > 0 {
      var cs := LabelPart(categories);
      assert AttributeValue(cs[0].attributes, Plain("scheme")) == Some(LabelScheme);
      assert AttributeValue(cs[0].attributes, Plain("term")) == Some(categories[0]);
      assert cs[1..] == LabelPart(categories[1..]);
      LabelsOfLabelPart(categories[1..]);
    }
  }

  /** The kind category is not a label, so the labels read back are exactly the entry's categories. */
  lemma LabelsOfCategoryPart(e: Entry)
    ensures Labels(CategoryPart(e)) == e.categories
    ensures IsPostKind(CategoryPart(e)[0])
  {
    var cs := CategoryPart(e);
    assert AttributeValue(cs[0].attributes, Plain("scheme")) == Some(KindScheme);
    assert KindScheme != LabelScheme;
    assert cs[1..] == LabelPart(e.categories);
    LabelsOfLabelPart(e.categories);
  }

  /**
   * The author and the draft flag, read from their nested elements. An `author` element is there
   * exactly for a non-empty author, an `app:control` element exactly for a draft.
   */
  lemma NestedFields(e: Entry)
    ensures |Named(EntryChildren(e), AtomName("author"))| == (if e.author != "" then 1 else 0)
    ensures |Named(EntryChildren(e), Name(App, "control"))| == (if e.isDraft then 1 else 0)
    ensures var author := First(EntryChildren(e), AtomName("author"));
      (if author.Some? then TextOf(First(ChildrenOf(author.value), AtomName("name"))).GetOr("") else "") == e.author
    ensures var control := First(EntryChildren(e), Name(App, "control"));
      (control.Some? && TextOf(First(ChildrenOf(control.value), Name(App, "draft"))) == Some("yes")) == e.isDraft
  {
    EntryLookup(e, 1);
    EntryLookup(e, 5);
  }

  /** The first element of each part, as a lookup by name finds it. */
  lemma EntryFirst(e: Entry, k: nat)
    requires k < |EntryPartNames|
    ensures var part := EntryParts(e)[k];
      First(EntryChildren(e), EntryPartNames[k]) == if |part| == 0 then None else Some(part[0])
  {
    EntryLookup(e, k);
  }

  /**
   * The fields held directly as text or a date. An `id`, `published` or `updated` element is there
   * exactly when the entry has that value; `title` and `content` are always there, once each.
   */
  lemma DirectFields(e: Entry)
    ensures var cs := EntryChildren(e);
      && |Named(cs, AtomName("id"))| == (if e.id.Some? then 1 else 0)
      && |Named(cs, AtomName("published"))| == (if e.published.Some? then 1 else 0)
      && |Named(cs, AtomName("updated"))| == (if e.updated.Some? then 1 else 0)
      && |Named(cs, AtomName("title"))| == 1
      && |Named(cs, AtomName("content"))| == 1
    ensures var cs := EntryChildren(e);
      && TextOf(First(cs, AtomName("id"))) == PostOf(e).id
      && TimeOf(First(cs, AtomName("published"))) == e.published
      && TimeOf(First(cs, AtomName("updated"))) == e.updated
      && TypedText(First(cs, AtomName("title")), "text") == Some(e.title)
      && TypedText(First(cs, AtomName("content")), "html") == Some(e.formattedContent)
  {
    DirectCounts(e);
    DirectValues(e);
  }

  lemma DirectCounts(e: Entry)
    ensures var cs := EntryChildren(e);
      && |Named(cs, AtomName("id"))| == (if e.id.Some? then 1 else 0)
      && |Named(cs, AtomName("published"))| == (if e.published.Some? then 1 else 0)
      && |Named(cs, AtomName("updated"))| == (if e.updated.Some? then 1 else 0)
      && |Named(cs, AtomName("title"))| == 1
      && |Named(cs, AtomName("content"))| == 1
  {
    EntryLookup(e, 0);
    EntryLookup(e, 2);
    EntryLookup(e, 3);
    EntryLookup(e, 4);
    EntryLookup(e, 7);
  }

  lemma DirectValues(e: Entry)
    ensures var cs := EntryChildren(e);
      && TextOf(First(cs, AtomName("id"))) == PostOf(e).id
      && TimeOf(First(cs, AtomName("published"))) == e.published
      && TimeOf(First(cs, AtomName("updated"))) == e.updated
      && TypedText(First(cs, AtomName("title")), "text") == Some(e.title)
      && TypedText(First(cs, AtomName("content")), "html") == Some(e.formattedContent)
  {
    EntryFirst(e, 0);
    EntryFirst(e, 2);
    EntryFirst(e, 3);
    EntryFirst(e, 4);
    EntryFirst(e, 7);
  }

  /**
   * The category children mark a post and carry the entry's categories as labels: the kind
   * category comes first, then one category per label.
   */
  lemma CategoryFields(e: Entry)
    ensures var categories := Named(EntryChildren(e), AtomName("category"));
      && |categories| == 1 + |e.categories|
      && categories[0] == KindCategory() && IsPostKind(categories[0])
      && Labels(categories) == e.categories
  {
    EntryLookup(e, 6);
    LabelsOfCategoryPart(e);
  }

  /**
   * An entry's children come grouped by name in the formatter's order: id, author, published,
   * updated, title, app:control, the categories, content.
   */
  lemma EntryOrder(e: Entry)
    ensures GroupedInOrder(EntryChildren(e),
      [AtomName("id"), AtomName("author"), AtomName("published"), AtomName("updated"),
       AtomName("title"), Name(App, "control"), AtomName("category"), AtomName("content")])
  {
    var cs := EntryChildren(e);
    var groups := seq(|EntryPartNames|, k requires 0 <= k < |EntryPartNames| => Named(cs, EntryPartNames[k]));
    forall k | 0 <= k < |EntryPartNames|
      ensures groups[k] == EntryParts(e)[k]
    {
      EntryLookup(e, k);
    }
    assert groups == EntryParts(e);
  }

  /** Reading an entry element back yields what the formatter promises about the entry. */
  lemma EntryRoundTrip(e: Entry)
    ensures ReadEntry(EntryElement(e)) == Some(PostOf(e))
  {
    DirectFields(e);
    NestedFields(e);
    CategoryFields(e);
  }

  /**
   * The reader pins the `type` attributes: an entry whose first title is not typed `text`, or
   * whose first content is not typed `html`, is not read as a post.
   */
  lemma UntypedRejected(el: Element)
    requires el.name == AtomName("entry") && el.content.Children?
    requires var cs := el.content.children;
      || TypedText(First(cs, AtomName("title")), "text").None?
      || TypedText(First(cs, AtomName("content")), "html").None?
    ensures ReadEntry(el) == None
  {
  }

  /** A list of elements reads as what each of them reads as, in order. */
  lemma {:induction false} ReadEachSucceeds<T>(read: Element -> Option<T>, els: seq<Element>, xs: seq<T>)
    requires |els| == |xs|
    requires forall i :: 0 <= i < |els| ==> read(els[i]) == Some(xs[i])
    ensures ReadEach(read, els) == Some(xs)
    decreases |els|
  {
    if |els| > 0 {
      ReadEachSucceeds(read, els[1..], xs[1..]);
      assert xs == [xs[0]] + xs[1..];
    }
  }

  lemma EntriesRoundTrip(entries: seq<Entry>)
    ensures ReadEach(ReadEntry, EntryElements(entries)) == Some(seq(|entries|, i requires 0 <= i < |entries| => PostOf(entries[i])))
  {
    var els := EntryElements(entries);
    forall i | 0 <= i < |els|
      ensures ReadEntry(els[i]) == Some(PostOf(entries[i]))
    {
      EntryRoundTrip(entries[i]);
    }
    ReadEachSucceeds(ReadEntry, els, seq(|entries|, i requires 0 <= i < |entries| => PostOf(entries[i])));
  }

  lemma FeedLookup(blogTitle: string, entries: seq<Entry>, k: nat)
    requires k < 3
    ensures Named(Concat(FeedParts(blogTitle, entries)), FeedPartNames[k]) == FeedParts(blogTitle, entries)[k]
  {
    var ps := FeedParts(blogTitle, entries);
    assert forall j :: 0 <= j < 3 ==> AllNamed(ps[j], FeedPartNames[j]);
    LookupPart(ps, FeedPartNames, k);
  }

  /** The feed's children come grouped by name: the title, the generator, then the entries. */
  lemma FeedOrder(blogTitle: string, entries: seq<Entry>)
    ensures GroupedInOrder(Concat(FeedParts(blogTitle, entries)), FeedPartNames)
  {
    var cs := Concat(FeedParts(blogTitle, entries));
    var groups := seq(|FeedPartNames|, k requires 0 <= k < |FeedPartNames| => Named(cs, FeedPartNames[k]));
    forall k | 0 <= k < |FeedPartNames|
      ensures groups[k] == FeedParts(blogTitle, entries)[k]
    {
      FeedLookup(blogTitle, entries, k);
    }
    assert groups == FeedParts(blogTitle, entries);
  }

  /**
   * Reading the document back yields the blog title (empty when none was given), the `Blogger`
   * generator, the app namespace declaration, and one post per entry, in order.
   */
  lemma FormatRoundTrip(blogTitle: string, entries: seq<Entry>)
    ensures ReadDocument(Format(blogTitle, entries))
      == Some(Blog(blogTitle, Some(GeneratorName), Some(NamespaceUri(App)),
                   seq(|entries|, i requires 0 <= i < |entries| => PostOf(entries[i]))))
  {
    FeedFields(blogTitle, entries);
    EntriesRoundTrip(entries);
  }

  /** The title and generator children, and the entry children, as a lookup by name finds them. */
  lemma FeedFields(blogTitle: string, entries: seq<Entry>)
    ensures var cs := Concat(FeedParts(blogTitle, entries));
      && TextOf(First(cs, AtomName("title"))).GetOr("") == blogTitle
      && TextOf(First(cs, AtomName("generator"))) == Some(GeneratorName)
      && Named(cs, AtomName("entry")) == EntryElements(entries)
  {
    FeedLookup(blogTitle, entries, 0);
    FeedLookup(blogTitle, entries, 1);
    FeedLookup(blogTitle, entries, 2);
  }
}

=== FILE: cli_base.dfy ===
/**
 * The command-line handling every tool shares: the credential options `-id`, `-blogid` and
 * `-apikey`, their validation, and the decision taken on the login response.
 */
module CliBase {
  import opened Wrappers

  /** The three values a session is authenticated with. */
  datatype Credential = Credential(hatenaId: string, blogId: string, apiKey: string)

  /**
   * Why argument handling ended the run. Every case but `MissingValue` is reported through
   * `Usage`, which exits the process; `MissingValue` is the index-out-of-range exception raised
   * when an option that takes a value is the last argument.
   */
  datatype CliError =
    | MissingValue(option: string)
    | UsageRequested
    | MissingHatenaId
    | MissingBlogId
    | MissingApiKey

  const HelpTokens: set<string> := {"/help", "-h", "--help"}
  const CredentialOptions: set<string> := {"-id", "-blogid", "-apikey"}

  /** An argument the shared scan acts on instead of passing it through. */
  predicate IsCommonToken(a: string) {
    a in CredentialOptions || a in HelpTokens
  }

  /** The state of the left-to-right scan: the last value given for each option, and the arguments passed through. */
  datatype CommonScan = CommonScan(hatenaId: Option<string>, blogId: Option<string>, apiKey: Option<string>, unparsed: seq<string>)

  const EmptyScan := CommonScan(None, None, None, [])

  /** `xs` is `ys` with some elements removed, order kept. */
  predicate IsSubsequence<T(==)>(xs: seq<T>, ys: seq<T>)
    decreases |ys|
  {
    if |ys| == 0 then |xs| == 0
    else (|xs| > 0 && xs[0] == ys[0] && IsSubsequence(xs[1..], ys[1..])) || IsSubsequence(xs, ys[1..])
  }

  /**
   * The loop of `ParseCommonCommandLineArgs`: a credential option stores the argument after it
   * (overwriting an earlier value) and skips it, a help flag ends the run, anything else is kept.
   */
  function ScanCommon(args: seq<string>, acc: CommonScan): (r: Result<CommonScan, CliError>)
    ensures r.Failure? ==> r.error == UsageRequested || (r.error.MissingValue? && r.error.option in CredentialOptions)
    ensures r.Success? ==> acc.unparsed <= r.value.unparsed
    ensures r.Success? ==> |r.value.unparsed| - |acc.unparsed| <= |args|
    decreases |args|
  {
    if |args| == 0 then Success(acc)
    else if args[0] in CredentialOptions then
      if |args| < 2 then Failure(MissingValue(args[0]))
      else if args[0] == "-id" then ScanCommon(args[2..], acc.(hatenaId := Some(args[1])))
      else if args[0] == "-blogid" then ScanCommon(args[2..], acc.(blogId := Some(args[1])))
      else ScanCommon(args[2..], acc.(apiKey := Some(args[1])))
    else if args[0] in HelpTokens then Failure(UsageRequested)
    else ScanCommon(args[1..], acc.(unparsed := acc.unparsed + [args[0]]))
  }

  predicate Given(v: Option<string>) {
    v.Some? && v.value != ""
  }

  /** The three `string.IsNullOrEmpty` checks, in the order the source makes them. */
  function ValidateCredential(hatenaId: Option<string>, blogId: Option<string>, apiKey: Option<string>): (r: Result<Credential, CliError>)
    ensures r == Failure(MissingHatenaId) <==> !Given(hatenaId)
    ensures r == Failure(MissingBlogId) <==> Given(hatenaId) && !Given(blogId)
    ensures r == Failure(MissingApiKey) <==> Given(hatenaId) && Given(blogId) && !Given(apiKey)
    ensures r.Success? <==> Given(hatenaId) && Given(blogId) && Given(apiKey)
    ensures r.Success? ==> r.value == Credential(hatenaId.value, blogId.value, apiKey.value)
  {
    if !Given(hatenaId) then Failure(MissingHatenaId)
    else if !Given(blogId) then Failure(MissingBlogId)
    else if !Given(apiKey) then Failure(MissingApiKey)
    else Success(Credential(hatenaId.value, blogId.value, apiKey.value))
  }

  /** A successful parse: the credential and the arguments that replace `args`. */
  datatype CommonArgs = CommonArgs(credential: Credential, rest: seq<string>)

  /**
   * `ParseCommonCommandLineArgs`: on success the credential holds three non-empty values and the
   * remaining arguments are the unrecognised ones, in their original order; on failure no
   * credential is produced.
   */
  function ParseCommonArgs(args: seq<string>): (r: Result<CommonArgs, CliError>)
    ensures r.Success? ==> r.value.credential.hatenaId != "" && r.value.credential.blogId != "" && r.value.credential.apiKey != ""
    ensures r.Success? ==> IsSubsequence(r.value.rest, args)
    ensures r.Success? ==> forall i :: 0 <= i < |r.value.rest| ==> !IsCommonToken(r.value.rest[i])
  {
    ScanKeepsSubsequence(args);
    var scan :- ScanCommon(args, EmptyScan);
    var credential :- ValidateCredential(scan.hatenaId, scan.blogId, scan.apiKey);
    Success(CommonArgs(credential, scan.unparsed))
  }

  /**
   * An option that takes a value, given as the last argument where the scan reads it as an
   * option, fails with `MissingValue` for that option: `args[++i]` runs past the end.
   */
  lemma {:induction false} TrailingOptionFails(args: seq<string>, acc: CommonScan, opt: string)
    requires opt in CredentialOptions
    requires ScanCommon(args, acc).Success?
    ensures ScanCommon(args + [opt], acc) == Failure(MissingValue(opt))
    decreases |args|
  {
    var all := args + [opt];
    if |args| == 0 {
      assert all == [opt];
    } else if args[0] in CredentialOptions {
      assert |args| >= 2;
      assert all[2..] == args[2..] + [opt];
      var next := if args[0] == "-id" then acc.(hatenaId := Some(args[1]))
        else if args[0] == "-blogid" then acc.(blogId := Some(args[1]))
        else acc.(apiKey := Some(args[1]));
      TrailingOptionFails(args[2..], next, opt);
    } else {
      assert all[1..] == args[1..] + [opt];
      TrailingOptionFails(args[1..], acc.(unparsed := acc.unparsed + [args[0]]), opt);
    }
  }

  /** `ParseCommonCommandLineArgs` on arguments ending in a credential option with no value after it. */
  lemma ParseTrailingOptionFails(args: seq<string>, opt: string)
    requires opt in CredentialOptions
    requires ScanCommon(args, EmptyScan).Success?
    ensures ParseCommonArgs(args + [opt]) == Failure(MissingValue(opt))
  {
    TrailingOptionFails(args, EmptyScan, opt);
  }

  /** Later wins: the value the second scan found, if it found one, else the first scan's. */
  function Later(earlier: Option<string>, later: Option<string>): Option<string> {
    if later.Some? then later else earlier
  }

  /** The scan state after scanning with state `acc` arguments that, scanned alone, gave `s`. */
  function Merge(acc: CommonScan, s: CommonScan): CommonScan {
    CommonScan(Later(acc.hatenaId, s.hatenaId), Later(acc.blogId, s.blogId), Later(acc.apiKey, s.apiKey),
               acc.unparsed + s.unparsed)
  }

  function MergeResult(acc: CommonScan, r: Result<CommonScan, CliError>): Result<CommonScan, CliError> {
    match r
    case Success(s) => Success(Merge(acc, s))
    case Failure(e) => Failure(e)
  }

  /**
   * The scan is compositional: scanning from any state is scanning from nothing and then letting
   * every value found override the state's, with the kept arguments appended to the state's.
   */
  lemma {:induction false} ScanFromState(args: seq<string>, acc: CommonScan)
    ensures ScanCommon(args, acc) == MergeResult(acc, ScanCommon(args, EmptyScan))
    decreases |args|
  {
    if |args| == 0 {
      assert acc.unparsed + [] == acc.unparsed;
    } else if args[0] in CredentialOptions {
      if |args| >= 2 {
        var a := args[1];
        var accNext := if args[0] == "-id" then acc.(hatenaId := Some(a))
          else if args[0] == "-blogid" then acc.(blogId := Some(a))
          else acc.(apiKey := Some(a));
        var emptyNext := if args[0] == "-id" then EmptyScan.(hatenaId := Some(a))
          else if args[0] == "-blogid" then EmptyScan.(blogId := Some(a))
          else EmptyScan.(apiKey := Some(a));
        ScanFromState(args[2..], accNext);
        ScanFromState(args[2..], emptyNext);
        assert accNext == Merge(acc, emptyNext);
        MergeAssociative(acc, emptyNext, ScanCommon(args[2..], EmptyScan));
      }
    } else if args[0] in HelpTokens {
    } else {
      var accNext := acc.(unparsed := acc.unparsed + [args[0]]);
      var emptyNext := EmptyScan.(unparsed := EmptyScan.unparsed + [args[0]]);
      ScanFromState(args[1..], accNext);
      ScanFromState(args[1..], emptyNext);
      assert accNext == Merge(acc, emptyNext);
      MergeAssociative(acc, emptyNext, ScanCommon(args[1..], EmptyScan));
    }
  }

  lemma MergeAssociative(acc: CommonScan, x: CommonScan, r: Result<CommonScan, CliError>)
    ensures MergeResult(Merge(acc, x), r) == MergeResult(acc, MergeResult(x, r))
  {
    if r.Success? {
      assert acc.unparsed + x.unparsed + r.value.unparsed == acc.unparsed + (x.unparsed + r.value.unparsed);
    }
  }

  /** Scanning from nothing keeps a subsequence of the arguments, none of them a token the scan acts on. */
  lemma {:induction false} ScanKeepsSubsequence(args: seq<string>)
    ensures ScanCommon(args, EmptyScan).Success? ==> IsSubsequence(ScanCommon(args, EmptyScan).value.unparsed, args)
    ensures ScanCommon(args, EmptyScan).Success? ==>
      forall i :: 0 <= i < |ScanCommon(args, EmptyScan).value.unparsed| ==> !IsCommonToken(ScanCommon(args, EmptyScan).value.unparsed[i])
    decreases |args|
  {
    if |args| == 0 {
    } else if args[0] in CredentialOptions {
      if |args| >= 2 {
        var a := args[1];
        var next := if args[0] == "-id" then EmptyScan.(hatenaId := Some(a))
          else if args[0] == "-blogid" then EmptyScan.(blogId := Some(a))
          else EmptyScan.(apiKey := Some(a));
        ScanFromState(args[2..], next);
        ScanKeepsSubsequence(args[2..]);
        if ScanCommon(args, EmptyScan).Success? {
          var kept := ScanCommon(args, EmptyScan).value.unparsed;
          assert kept == ScanCommon(args[2..], EmptyScan).value.unparsed;
          assert IsSubsequence(kept, args[1..]) by {
            assert args[1..][1..] == args[2..];
          }
        }
      }
    } else if args[0] in HelpTokens {
    } else {
      var next := EmptyScan.(unparsed := EmptyScan.unparsed + [args[0]]);
      ScanFromState(args[1..], next);
      ScanKeepsSubsequence(args[1..]);
      if ScanCommon(args, EmptyScan).Success? {
        var kept := ScanCommon(args, EmptyScan).value.unparsed;
        assert kept == [args[0]] + ScanCommon(args[1..], EmptyScan).value.unparsed;
        assert kept[1..] == ScanCommon(args[1..], EmptyScan).value.unparsed;
      }
    }
  }

  /** `Option`-field of the scan that the credential option `opt` sets. */
  function ValueOf(s: CommonScan, opt: string): Option<string>
    requires opt in CredentialOptions
  {
    if opt == "-id" then s.hatenaId else if opt == "-blogid" then s.blogId else s.apiKey
  }

  /**
   * A later occurrence of a credential option overwrites an earlier one: an `opt value` pair in
   * front of arguments that set `opt` again changes nothing.
   */
  lemma LaterOccurrenceWins(opt: string, value: string, args: seq<string>)
    requires opt in CredentialOptions
    requires ScanCommon(args, EmptyScan).Success? && ValueOf(ScanCommon(args, EmptyScan).value, opt).Some?
    ensures ParseCommonArgs([opt, value] + args) == ParseCommonArgs(args)
  {
    var all := [opt, value] + args;
    assert all[2..] == args;
    var next := if opt == "-id" then EmptyScan.(hatenaId := Some(value))
      else if opt == "-blogid" then EmptyScan.(blogId := Some(value))
      else EmptyScan.(apiKey := Some(value));
    ScanFromState(args, next);
    var sc := ScanCommon(args, EmptyScan).value;
    assert [] + sc.unparsed == sc.unparsed;
    assert Merge(next, sc) == sc;
    assert ScanCommon(all, EmptyScan) == ScanCommon(all[2..], next);
  }

  /** The arguments that give `credential` followed by the tool's own arguments `rest`. */
  function CommonCommandLine(credential: Credential, rest: seq<string>): seq<string> {
    ["-id", credential.hatenaId, "-blogid", credential.blogId, "-apikey", credential.apiKey] + rest
  }

  lemma {:induction false} ScanPassesThrough(rest: seq<string>)
    requires forall i :: 0 <= i < |rest| ==> !IsCommonToken(rest[i])
    ensures ScanCommon(rest, EmptyScan) == Success(EmptyScan.(unparsed := rest))
    decreases |rest|
  {
    if |rest| > 0 {
      var next := EmptyScan.(unparsed := EmptyScan.unparsed + [rest[0]]);
      ScanPassesThrough(rest[1..]);
      ScanFromState(rest[1..], next);
      assert EmptyScan.unparsed + [rest[0]] + rest[1..] == rest;
      assert ScanCommon(rest, EmptyScan) == ScanCommon(rest[1..], next);
    }
  }

  /**
   * Parsing inverts `CommonCommandLine`: a valid credential and arguments free of the shared
   * tokens come back exactly.
   */
  lemma {:induction false} ParseCommonArgsRoundTrip(credential: Credential, rest: seq<string>)
    requires credential.hatenaId != "" && credential.blogId != "" && credential.apiKey != ""
    requires forall i :: 0 <= i < |rest| ==> !IsCommonToken(rest[i])
    ensures ParseCommonArgs(CommonCommandLine(credential, rest)) == Success(CommonArgs(credential, rest))
  {
    var args := CommonCommandLine(credential, rest);
    var acc := CommonScan(Some(credential.hatenaId), Some(credential.blogId), Some(credential.apiKey), []);
    assert args[2..][2..][2..] == rest;
    ScanPassesThrough(rest);
    ScanFromState(rest, acc);
    assert [] + rest == rest;
    assert Merge(acc, EmptyScan.(unparsed := rest)) == acc.(unparsed := rest);
    var acc1 := EmptyScan.(hatenaId := Some(credential.hatenaId));
    var acc2 := acc1.(blogId := Some(credential.blogId));
    assert acc2.(apiKey := Some(credential.apiKey)) == acc;
    assert ScanCommon(args, EmptyScan) == ScanCommon(args[2..], acc1);
    assert ScanCommon(args[2..], acc1) == ScanCommon(args[2..][2..], acc2);
    assert ScanCommon(args[2..][2..], acc2) == ScanCommon(rest, acc);
  }

  /** `HttpStatusCode.OK`. */
  const StatusOK := 200

  /** A logged-in AtomPub client, known here only by the credential it was created with. */
  datatype Client = Client(credential: Credential)

  /**
   * The decision `Login` takes on the status code of the service-document request: only 200
   * yields a client; any other status leaves the client unset and is reported back.
   */
  function Login(credential: Credential, status: int): (r: Result<Client, int>)
    ensures r.Success? <==> status == StatusOK
    ensures r.Success? ==> r.value.credential == credential
    ensures r.Failure? ==> r.error == status
  {
    if status == StatusOK then Success(Client(credential)) else Failure(status)
  }
}

=== FILE: content_editors.dfy ===
/**
 * The two entry editors of the replace tool: a literal replace-all and a regular-expression
 * replace. Each rewrites only the entry's content, reports whether the entry was modified,
 * and hands (original, new) content to the caller's callback when it was.
 */
module ContentEditors {
  import opened Wrappers
  import opened Strings
  import opened Entries

  /** The argument pair of one callback invocation: content before and after the edit. */
  datatype Change = Change(original: string, edited: string)

  /**
   * What an editor leaves behind: the entry with its new content, the `modified` flag, and the
   * callback invocation it made (`None` when it made none; at most one per edit).
   */
  datatype EditOutcome = EditOutcome(entry: Entry, modified: bool, notified: Option<Change>)

  /** The editor wrote no field but `content`. */
  predicate OnlyContentWritten(before: Entry, after: Entry) {
    after == before.(content := after.content)
  }

  /** The callback ran exactly when the edit reported a modification, with (original, new) content. */
  predicate NotifiedIffModified(before: Entry, o: EditOutcome) {
    o.notified == (if o.modified then Some(Change(before.content, o.entry.content)) else None)
  }

  // ---------------------------------------------------------------------------------------------
  // Literal replace (`string.Replace`, ordinal)
  // ---------------------------------------------------------------------------------------------

  /**
   * Ordinal `string.Replace(from, to)`: scans left to right; at each position where `from`
   * starts it emits `to` and resumes after the occurrence, otherwise it copies one character.
   * `string.Replace` throws on an empty `from`, hence the precondition. A text without `from`,
   * and a replacement by `from` itself, come back as they were.
   */
  function ReplaceAll(s: string, from: string, to: string): (r: string)
    requires |from| > 0
    ensures !Contains(s, from) ==> r == s
    ensures from == to ==> r == s
    decreases |s|
  {
    if |s| < |from| then s
    else if from <= s then
      assert s == s[..|from|] + s[|from|..];
      to + ReplaceAll(s[|from|..], from, to)
    else
      assert s == [s[0]] + s[1..];
      [s[0]] + ReplaceAll(s[1..], from, to)
  }

  /**
   * `ps` cuts a string at leftmost, non-overlapping occurrences of `from`: no occurrence of `from`
   * starts inside any piece, that is, none lies in a piece or straddles into the occurrence after it.
   */
  predicate LeftmostPieces(ps: seq<string>, from: string)
    requires |from| > 0
  {
    && |ps| >= 1
    && (forall i :: 0 <= i < |ps| - 1 ==> !Contains(ps[i] + from[..|from| - 1], from))
    && !Contains(ps[|ps| - 1], from)
  }

  /**
   * Reference decomposition of `s` into the text between leftmost, non-overlapping occurrences of
   * `from`: rejoining the pieces with `from` gives `s` back.
   */
  function Pieces(s: string, from: string): (ps: seq<string>)
    requires |from| > 0
    ensures LeftmostPieces(ps, from)
    ensures Join(ps, from) == s
    ensures ps[0] <= s
    decreases |s|
  {
    if |s| < |from| then
      NotContainsShort(s, from);
      [s]
    else if from <= s then
      var rest := Pieces(s[|from|..], from);
      NotContainsShort(from[..|from| - 1], from);
      assert "" + from[..|from| - 1] == from[..|from| - 1];
      [""] + rest
    else
      var rest := Pieces(s[1..], from);
      var head := [s[0]] + rest[0];
      PrependKeepsLeftmost(s, from, rest);
      JoinConsHead(s[0], rest, from);
      [head] + rest[1..]
  }

  lemma {:induction false} NotContainsShort(s: string, t: string)
    requires |s| < |t|
    ensures !Contains(s, t)
  {
    if Contains(s, t) {
      ContainsNeedsRoom(s, t);
    }
  }

  /** Prepending a character that does not start an occurrence keeps a last piece free of `from`. */
  lemma {:induction false} PrependedLastPieceFree(s: string, from: string, rest: seq<string>)
    requires |from| > 0 && |s| >= |from| && !(from <= s)
    requires LeftmostPieces(rest, from) && Join(rest, from) == s[1..] && rest[0] <= s[1..]
    requires |rest| == 1
    ensures !Contains([s[0]] + rest[0], from)
  {
    var head := [s[0]] + rest[0];
    assert head[1..] == rest[0];
    NoOccurrenceAtStart(s, from, head);
  }

  /** Prepending a character that does not start an occurrence keeps an inner piece leftmost. */
  lemma {:induction false} PrependedPieceLeftmost(s: string, from: string, rest: seq<string>)
    requires |from| > 0 && |s| >= |from| && !(from <= s)
    requires LeftmostPieces(rest, from) && Join(rest, from) == s[1..] && rest[0] <= s[1..]
    requires |rest| > 1
    ensures !Contains([s[0]] + rest[0] + from[..|from| - 1], from)
  {
    var w := [s[0]] + rest[0] + from[..|from| - 1];
    assert w[1..] == rest[0] + from[..|from| - 1];
    HeadPieceIsPrefix(s, from, rest);
    NoOccurrenceAtStart(s, from, w);
  }

  lemma {:induction false} PrependKeepsLeftmost(s: string, from: string, rest: seq<string>)
    requires |from| > 0 && |s| >= |from| && !(from <= s)
    requires LeftmostPieces(rest, from) && Join(rest, from) == s[1..] && rest[0] <= s[1..]
    ensures LeftmostPieces([[s[0]] + rest[0]] + rest[1..], from)
  {
    var ps := [[s[0]] + rest[0]] + rest[1..];
    if |rest| == 1 {
      PrependedLastPieceFree(s, from, rest);
    } else {
      PrependedPieceLeftmost(s, from, rest);
      forall i | 1 <= i < |ps| - 1
        ensures !Contains(ps[i] + from[..|from| - 1], from)
      {
        assert ps[i] == rest[i];
      }
      assert ps[|ps| - 1] == rest[|rest| - 1];
    }
  }

  lemma {:induction false} HeadPieceIsPrefix(s: string, from: string, rest: seq<string>)
    requires |from| > 0 && |s| >= 1
    requires |rest| > 1 && Join(rest, from) == s[1..]
    ensures [s[0]] + rest[0] + from[..|from| - 1] <= s
  {
    var tail := from + Join(rest[1..], from);
    assert s[1..] == rest[0] + tail;
    assert s == [s[0]] + rest[0] + tail;
  }

  /** A prefix `w` of `s` that `from` does not start, and whose tail is free of `from`, is free of `from`. */
  lemma {:induction false} NoOccurrenceAtStart(s: string, from: string, w: string)
    requires |from| > 0 && !(from <= s) && w <= s
    requires |w| > 0 && !Contains(w[1..], from)
    ensures !Contains(w, from)
  {
  }

  lemma {:induction false} JoinConsHead(c: char, ps: seq<string>, sep: string)
    requires |ps| >= 1
    ensures Join([[c] + ps[0]] + ps[1..], sep) == [c] + Join(ps, sep)
  {
    var qs := [[c] + ps[0]] + ps[1..];
    assert qs[1..] == ps[1..];
  }

  /** `string.Replace` emits the pieces between leftmost occurrences of `from`, joined by `to`. */
  lemma {:induction false} ReplaceAllIsJoinOfPieces(s: string, from: string, to: string)
    requires |from| > 0
    ensures ReplaceAll(s, from, to) == Join(Pieces(s, from), to)
    decreases |s|
  {
    if |s| < |from| {
    } else if from <= s {
      ReplaceAllIsJoinOfPieces(s[|from|..], from, to);
      var rest := Pieces(s[|from|..], from);
      assert Pieces(s, from) == [""] + rest;
      assert ([""] + rest)[1..] == rest;
    } else {
      ReplaceAllIsJoinOfPieces(s[1..], from, to);
      var rest := Pieces(s[1..], from);
      JoinConsHead(s[0], rest, to);
    }
  }

  /** `from` occurs in `s` exactly when the decomposition has a cut. */
  lemma {:induction false} OccursIffCut(s: string, from: string)
    requires |from| > 0
    ensures Contains(s, from) <==> |Pieces(s, from)| >= 2
  {
    var ps := Pieces(s, from);
    if |ps| >= 2 {
      var tail := from + Join(ps[1..], from);
      assert s == ps[0] + tail;
      assert from <= tail;
      ContainsPrefixed(ps[0], tail, from);
    } else {
      assert Join(ps, from) == ps[0];
      assert !Contains(ps[|ps| - 1], from);
    }
  }

  lemma {:induction false} JoinLengthDifference(ps: seq<string>, a: string, b: string)
    requires |ps| >= 1
    ensures |Join(ps, a)| - |Join(ps, b)| == (|ps| - 1) * (|a| - |b|)
  {
    if |ps| > 1 {
      JoinLengthDifference(ps[1..], a, b);
    }
  }

  /**
   * The literal replace changes the text exactly when `from` occurs in it and the replacement
   * differs from it.
   */
  lemma {:induction false} ReplaceAllChangesIff(s: string, from: string, to: string)
    requires |from| > 0
    ensures ReplaceAll(s, from, to) != s <==> Contains(s, from) && from != to
  {
    ReplaceAllIsJoinOfPieces(s, from, to);
    OccursIffCut(s, from);
    var ps := Pieces(s, from);
    if Contains(s, from) && from != to {
      JoinsDiffer(ps, from, to);
    } else if from == to {
    } else {
      assert |ps| == 1;
    }
  }

  /** Joining two or more pieces with different separators gives different strings. */
  lemma {:induction false} JoinsDiffer(ps: seq<string>, a: string, b: string)
    requires |ps| >= 2 && a != b
    ensures Join(ps, a) != Join(ps, b)
  {
    if |a| != |b| {
      JoinLengthDifference(ps, a, b);
      assert (|ps| - 1) * (|a| - |b|) != 0;
    } else {
      assert Join(ps, a) == ps[0] + a + Join(ps[1..], a);
      assert Join(ps, b) == ps[0] + b + Join(ps[1..], b);
      SeparatorAt(ps[0], a, Join(ps[1..], a));
      SeparatorAt(ps[0], b, Join(ps[1..], b));
    }
  }

  lemma SeparatorAt(p: string, sep: string, q: string)
    ensures (p + sep + q)[|p|..|p| + |sep|] == sep
  {
  }

  /**
   * The literal `EntryEditor.Edit`: replaces every occurrence of `from` in the content, computes
   * `modified` from a length test and an ordinal comparison, and notifies when modified.
   */
  function EditLiteral(e: Entry, from: string, to: string): (o: EditOutcome)
    requires |from| > 0
    ensures OnlyContentWritten(e, o.entry)
    ensures o.entry.content == Join(Pieces(e.content, from), to)
    ensures o.modified <==> o.entry.content != e.content
    ensures o.modified <==> Contains(e.content, from) && from != to
    ensures NotifiedIffModified(e, o)
  {
    var original := e.content;
    var edited := ReplaceAll(original, from, to);
    ReplaceAllIsJoinOfPieces(original, from, to);
    ReplaceAllChangesIff(original, from, to);
    var modified := |original| != |edited| || original != edited;
    EditOutcome(e.(content := edited), modified,
                if modified then Some(Change(original, edited)) else None)
  }

  // ---------------------------------------------------------------------------------------------
  // Regular-expression replace
  // ---------------------------------------------------------------------------------------------

  /** One regular-expression match: where it starts in the content and how many characters it spans. */
  datatype Match = Match(index: nat, length: nat) {
    function End(): nat {
      index + length
    }
  }

  /**
   * The matches a regex engine reports for a text of length `n`, scanning from `pos`: in order,
   * non-overlapping (each starts no earlier than the previous one ends), and inside the text.
   */
  predicate OrderedMatches(ms: seq<Match>, pos: nat, n: nat) {
    |ms| == 0 || (pos <= ms[0].index && ms[0].End() <= n && OrderedMatches(ms[1..], ms[0].End(), n))
  }

  /** Where the `i`-th stretch of unmatched text starts: at `pos`, or where match `i - 1` ends. */
  function GapStart(ms: seq<Match>, pos: nat, i: nat): nat
    requires i <= |ms|
  {
    if i == 0 then pos else ms[i - 1].End()
  }

  /** Where the `i`-th stretch of unmatched text ends: where match `i` starts, or at the end `n`. */
  function GapEnd(ms: seq<Match>, n: nat, i: nat): nat
    requires i <= |ms|
  {
    if i == |ms| then n else ms[i].index
  }

  /**
   * The same ordering stated position by position instead of recursively: every match starts
   * no earlier than the gap before it and ends inside the text.
   */
  predicate MatchesWithin(ms: seq<Match>, pos: nat, n: nat) {
    pos <= n && forall i :: 0 <= i < |ms| ==> GapStart(ms, pos, i) <= ms[i].index && ms[i].End() <= n
  }

  /** The `|ms| + 1` stretches of `s[pos..]` that lie before, between and after the matches. */
  function Gaps(s: string, ms: seq<Match>, pos: nat): (gs: seq<string>)
    requires MatchesWithin(ms, pos, |s|)
    ensures |gs| == |ms| + 1
  {
    seq(|ms| + 1, i requires 0 <= i <= |ms| => s[GapStart(ms, pos, i)..GapEnd(ms, |s|, i)])
  }

  /** What the evaluator returns for each match, in match order. */
  function Expansions(ms: seq<Match>, expand: Match -> string): (rs: seq<string>)
    ensures |rs| == |ms|
  {
    seq(|ms|, i requires 0 <= i < |ms| => expand(ms[i]))
  }

  /** `gs[0] + rs[0] + gs[1] + rs[1] + ... + gs[|rs|]`. */
  function Interleave(gs: seq<string>, rs: seq<string>): string
    requires |gs| == |rs| + 1
    decreases |rs|
  {
    if |rs| == 0 then gs[0] else gs[0] + rs[0] + Interleave(gs[1..], rs[1..])
  }

  /** The replaced text and how many times the match evaluator ran. */
  datatype Substitution = Substitution(text: string, evaluations: nat)

  /**
   * `Regex.Replace(input, evaluator)` from position `pos`: text between matches is copied, each
   * match is replaced by the evaluator's result, and each evaluator call is counted.
   */
  function Substitute(s: string, ms: seq<Match>, expand: Match -> string, pos: nat): (r: Substitution)
    requires pos <= |s| && OrderedMatches(ms, pos, |s|)
    ensures r.evaluations == |ms|
    decreases |ms|
  {
    if |ms| == 0 then Substitution(s[pos..], 0)
    else
      var m := ms[0];
      var rest := Substitute(s, ms[1..], expand, m.End());
      Substitution(s[pos..m.index] + expand(m) + rest.text, rest.evaluations + 1)
  }

  /** When every match is replaced by the text it matched, the substitution gives the input back. */
  lemma {:induction false} SubstituteIdentity(s: string, ms: seq<Match>, expand: Match -> string, pos: nat)
    requires pos <= |s| && OrderedMatches(ms, pos, |s|)
    requires forall i :: 0 <= i < |ms| ==> ms[i].End() <= |s| && expand(ms[i]) == s[ms[i].index..ms[i].End()]
    ensures Substitute(s, ms, expand, pos).text == s[pos..]
    decreases |ms|
  {
    if |ms| > 0 {
      var m := ms[0];
      assert expand(m) == s[m.index..m.End()];
      forall i | 0 <= i < |ms[1..]|
        ensures ms[1..][i].End() <= |s| && expand(ms[1..][i]) == s[ms[1..][i].index..ms[1..][i].End()]
      {
        assert ms[1..][i] == ms[i + 1];
      }
      SubstituteIdentity(s, ms[1..], expand, m.End());
      assert s[pos..m.index] + s[m.index..m.End()] + s[m.End()..] == s[pos..];
    }
  }

  /**
   * What `Regex.Replace` writes: the unmatched stretches of the text, in order, with each
   * match's replacement between them.
   */
  lemma {:induction false} SubstituteIsInterleave(s: string, ms: seq<Match>, expand: Match -> string, pos: nat)
    requires pos <= |s| && OrderedMatches(ms, pos, |s|)
    ensures MatchesWithin(ms, pos, |s|)
    ensures Substitute(s, ms, expand, pos).text == Interleave(Gaps(s, ms, pos), Expansions(ms, expand))
    decreases |ms|
  {
    if |ms| > 0 {
      var m := ms[0];
      SubstituteIsInterleave(s, ms[1..], expand, m.End());
      forall i | 0 <= i < |ms|
        ensures GapStart(ms, pos, i) <= ms[i].index && ms[i].End() <= |s|
      {
        if i > 0 {
          assert ms[1..][i - 1] == ms[i];
          assert GapStart(ms, pos, i) == GapStart(ms[1..], m.End(), i - 1);
        }
      }
      var gs := Gaps(s, ms, pos);
      var rest := Gaps(s, ms[1..], m.End());
      assert gs[0] == s[pos..m.index];
      forall j | 0 <= j < |rest|
        ensures gs[1..][j] == rest[j]
      {
        assert GapStart(ms, pos, j + 1) == GapStart(ms[1..], m.End(), j);
        assert GapEnd(ms, |s|, j + 1) == GapEnd(ms[1..], |s|, j);
      }
      assert gs[1..] == rest;
      assert Expansions(ms, expand)[1..] == Expansions(ms[1..], expand);
    }
  }

  /** With a single match, the text before it, the replacement and the text after it. */
  lemma SubstituteOne(s: string, m: Match, expand: Match -> string)
    requires m.End() <= |s|
    ensures Substitute(s, [m], expand, 0).text == s[..m.index] + expand(m) + s[m.End()..]
  {
  }

  /**
   * `RegexEntryEditor.Edit`: replaces every match, and `modified` becomes true at the first
   * evaluator call, whether or not the replacement equals the matched text.
   */
  function EditRegex(e: Entry, ms: seq<Match>, expand: Match -> string): (o: EditOutcome)
    requires OrderedMatches(ms, 0, |e.content|)
    ensures OnlyContentWritten(e, o.entry)
    ensures o.modified <==> |ms| > 0
    ensures |ms| == 0 ==> o.entry.content == e.content
    ensures MatchesWithin(ms, 0, |e.content|)
    ensures o.entry.content == Interleave(Gaps(e.content, ms, 0), Expansions(ms, expand))
    ensures NotifiedIffModified(e, o)
  {
    SubstituteIsInterleave(e.content, ms, expand, 0);
    var original := e.content;
    var run := Substitute(original, ms, expand, 0);
    var modified := run.evaluations > 0;
    EditOutcome(e.(content := run.text), modified,
                if modified then Some(Change(original, run.text)) else None)
  }

  /**
   * A match whose replacement reproduces the matched text still counts as a modification:
   * the content is unchanged and yet the callback fires.
   */
  lemma {:induction false} RegexModifiedWithoutChange(e: Entry, ms: seq<Match>, expand: Match -> string)
    requires OrderedMatches(ms, 0, |e.content|) && |ms| > 0
    requires forall i :: 0 <= i < |ms| ==> ms[i].End() <= |e.content| && expand(ms[i]) == e.content[ms[i].index..ms[i].End()]
    ensures EditRegex(e, ms, expand).entry == e
    ensures EditRegex(e, ms, expand).modified
    ensures EditRegex(e, ms, expand).notified == Some(Change(e.content, e.content))
  {
    SubstituteIdentity(e.content, ms, expand, 0);
  }
}

=== FILE: entries.dfy ===
/** The posted-entry record shared by the editors and the export formatters. */
module Entries {
  import opened Wrappers

  /** A `System.Uri`: its full text and its `LocalPath` (for `https://example.com/entry/0/`, `/entry/0/`). */
  datatype Uri = Uri(text: string, localPath: string)

  predicate IsLeapYear(y: int) {
    y % 4 == 0 && (y % 100 != 0 || y % 400 == 0)
  }

  function DaysInMonth(year: int, month: int): int
    requires 1 <= month <= 12
  {
    if month == 2 then (if IsLeapYear(year) then 29 else 28)
    else if month == 4 || month == 6 || month == 9 || month == 11 then 30
    else 31
  }

  /** The ranges a `System.DateTime` enforces on its calendar and clock components. */
  predicate ValidDateTime(year: int, month: int, day: int, hour: int, minute: int, second: int) {
    && 1 <= year <= 9999
    && 1 <= month <= 12
    && 1 <= day <= DaysInMonth(year, month)
    && 0 <= hour <= 23
    && 0 <= minute <= 59
    && 0 <= second <= 59
  }

  datatype DateTimeFields = DateTimeFields(year: int, month: int, day: int, hour: int, minute: int, second: int)

  /** A wall-clock date and time at whole-second resolution, as `System.DateTime` allows it. */
  type DateTime = d: DateTimeFields | ValidDateTime(d.year, d.month, d.day, d.hour, d.minute, d.second)
    witness DateTimeFields(1, 1, 1, 0, 0, 0)

  /** A `System.DateTimeOffset`: a wall-clock time and its offset from UTC in minutes. */
  datatype Timestamp = Timestamp(clock: DateTime, offsetMinutes: int)

  /**
   * A posted entry. `id`, `memberUri` and `entryUri` locate it on the server; the remaining
   * fields are its content. `author` is the entry's `Author` text. A null string of the source is
   * the empty string here: the formatters write the two alike, but the source throws where the
   * model goes on (an editor given a null content, a null category's tag or label).
   */
  datatype Entry = Entry(
    id: Option<Uri>,
    memberUri: Option<Uri>,
    entryUri: Option<Uri>,
    title: string,
    author: string,
    categories: seq<string>,
    isDraft: bool,
    published: Option<Timestamp>,
    updated: Option<Timestamp>,
    summary: string,
    content: string,
    contentType: string,
    formattedContent: string)
}

=== FILE: movable_type.dfy ===
/**
 * The Movable Type export formatter: every entry becomes a block of lines in the Movable Type
 * import/export format, dates written as `MM/dd/yyyy hh:mm:ss tt` in the invariant culture.
 * Output is modelled as the sequence of lines the writer emits, each followed by "\n".
 */
module MovableType {
  import opened Wrappers
  import opened Strings
  import opened Entries

  // ---------------------------------------------------------------------------------------------
  // Dates
  // ---------------------------------------------------------------------------------------------

  /** The hour on a 12-hour clock: midnight and noon are 12. */
  function Hour12(hour: int): (h: int)
    requires 0 <= hour <= 23
    ensures 1 <= h <= 12
  {
    if hour % 12 == 0 then 12 else hour % 12
  }

  /** The first letter of the invariant culture's designator: "AM" before noon, "PM" from noon on. */
  function Meridiem(hour: int): char {
    if hour < 12 then 'A' else 'P'
  }

  /**
   * `DateTime.ToString("MM/dd/yyyy hh\\:mm\\:ss tt", CultureInfo.InvariantCulture)`: 22 characters
   * with the separators at fixed positions, "AM" before noon and "PM" from noon on.
   */
  function ToDateString(d: DateTime): (s: string)
    ensures |s| == 22 && s[2] == '/' && s[5] == '/' && s[10] == ' ' && s[13] == ':' && s[16] == ':' && s[19] == ' '
    ensures (s[20] == 'A' <==> d.hour < 12) && (s[20] == 'P' <==> 12 <= d.hour) && s[21] == 'M'
  {
    var mo := Pad2(d.month);
    var dd := Pad2(d.day);
    var yyyy := Pad4(d.year);
    var hh := Pad2(Hour12(d.hour));
    var mi := Pad2(d.minute);
    var ss := Pad2(d.second);
    [mo[0], mo[1], '/', dd[0], dd[1], '/', yyyy[0], yyyy[1], yyyy[2], yyyy[3], ' ',
     hh[0], hh[1], ':', mi[0], mi[1], ':', ss[0], ss[1], ' ', Meridiem(d.hour), 'M']
  }

  /** The 24-hour clock hour a 12-hour reading denotes. */
  function Hour24(h12: int, pm: bool): int {
    if pm then (if h12 == 12 then 12 else h12 + 12) else (if h12 == 12 then 0 else h12)
  }

  /** The layout `ToDateString` writes: separators, digit fields and a designator at fixed positions. */
  predicate DateShape(s: string) {
    && |s| == 22 && s[2] == '/' && s[5] == '/' && s[10] == ' ' && s[13] == ':' && s[16] == ':' && s[19] == ' '
    && DigitsAt(s, 0, 2) && DigitsAt(s, 3, 2) && DigitsAt(s, 6, 4) && DigitsAt(s, 11, 2)
    && DigitsAt(s, 14, 2) && DigitsAt(s, 17, 2)
    && s[21] == 'M' && (s[20] == 'A' || s[20] == 'P')
  }

  /** Reads a date written by `ToDateString`; `None` for any other text. */
  function ParseDateString(s: string): (r: Option<DateTime>)
  {
    if !DateShape(s) then None
    else
      var h12 := Read2(s, 11);
      var fields := DateTimeFields(Read4(s, 6), Read2(s, 0), Read2(s, 3), Hour24(h12, s[20] == 'P'),
                                   Read2(s, 14), Read2(s, 17));
      if 1 <= h12 <= 12 && ValidDateTime(fields.year, fields.month, fields.day, fields.hour, fields.minute, fields.second)
      then Some(fields)
      else None
  }

  /** The fields of `ToDateString` sit at fixed positions. */
  lemma DateStringLayout(d: DateTime)
    ensures var s := ToDateString(d);
      && s[0..2] == Pad2(d.month) && s[2] == '/'
      && s[3..5] == Pad2(d.day) && s[5] == '/'
      && s[6..10] == Pad4(d.year) && s[10] == ' '
      && s[11..13] == Pad2(Hour12(d.hour)) && s[13] == ':'
      && s[14..16] == Pad2(d.minute) && s[16] == ':'
      && s[17..19] == Pad2(d.second) && s[19] == ' '
      && s[20] == Meridiem(d.hour) && s[21] == 'M'
  {
    var s := ToDateString(d);
    assert s[0..2] == Pad2(d.month);
    assert s[3..5] == Pad2(d.day);
    assert s[6..10] == Pad4(d.year);
    assert s[11..13] == Pad2(Hour12(d.hour));
    assert s[14..16] == Pad2(d.minute);
    assert s[17..19] == Pad2(d.second);
  }

  /**
   * The 12-hour field and designator: hour 0 is "12 AM", 1 to 11 keep their number with "AM",
   * 12 is "12 PM", and 13 to 23 lose 12 and take "PM".
   */
  lemma {:induction false} ToDateStringHour(d: DateTime)
    ensures d.hour == 0 ==> ToDateString(d)[11..13] == "12" && ToDateString(d)[20..] == "AM"
    ensures 1 <= d.hour <= 11 ==> ToDateString(d)[11..13] == Pad2(d.hour) && ToDateString(d)[20..] == "AM"
    ensures d.hour == 12 ==> ToDateString(d)[11..13] == "12" && ToDateString(d)[20..] == "PM"
    ensures 13 <= d.hour ==> ToDateString(d)[11..13] == Pad2(d.hour - 12) && ToDateString(d)[20..] == "PM"
  {
    HourLayout(d);
    HourCases(d.hour);
    PadTwelve();
  }

  /** The 12-hour clock and designator of each hour of the day. */
  lemma HourCases(hour: int)
    requires 0 <= hour <= 23
    ensures hour == 0 ==> Hour12(hour) == 12 && Meridiem(hour) == 'A'
    ensures 1 <= hour <= 11 ==> Hour12(hour) == hour && Meridiem(hour) == 'A'
    ensures hour == 12 ==> Hour12(hour) == 12 && Meridiem(hour) == 'P'
    ensures 13 <= hour ==> Hour12(hour) == hour - 12 && Meridiem(hour) == 'P'
  {
  }

  lemma PadTwelve()
    ensures Pad2(12) == "12"
  {
  }

  /** Where `ToDateString` puts the 12-hour field and the designator. */
  lemma HourLayout(d: DateTime)
    ensures ToDateString(d)[11..13] == Pad2(Hour12(d.hour))
    ensures ToDateString(d)[20..] == [Meridiem(d.hour), 'M']
  {
    var s := ToDateString(d);
    assert s[11..13] == Pad2(Hour12(d.hour));
  }

  /** Every field of `ToDateString` reads back as the component it was written from. */
  lemma DateStringFields(d: DateTime)
    ensures DateShape(ToDateString(d))
    ensures var s := ToDateString(d);
      && Read2(s, 0) == d.month && Read2(s, 3) == d.day && Read4(s, 6) == d.year
      && Read2(s, 11) == Hour12(d.hour) && Read2(s, 14) == d.minute && Read2(s, 17) == d.second
      && (s[20] == 'P' <==> d.hour >= 12)
  {
    var s := ToDateString(d);
    DateStringLayout(d);
    Pad2RoundTrip(d.month, s, 0);
    Pad2RoundTrip(d.day, s, 3);
    Pad4RoundTrip(d.year, s, 6);
    Pad2RoundTrip(Hour12(d.hour), s, 11);
    Pad2RoundTrip(d.minute, s, 14);
    Pad2RoundTrip(d.second, s, 17);
  }

  /** `ToDateString` loses nothing: the parser reads every date back. */
  lemma DateStringRoundTrip(d: DateTime)
    ensures ParseDateString(ToDateString(d)) == Some(d)
  {
    DateStringFields(d);
    Hour24Inverts(d.hour);
  }

  lemma Hour24Inverts(hour: int)
    requires 0 <= hour <= 23
    ensures Hour24(Hour12(hour), hour >= 12) == hour
  {
  }

  /** The formatter's unit-test vectors for `ToDateString`. */
  lemma ToDateStringExamples()
    ensures ToDateString(DateTimeFields(2020, 3, 31, 0, 1, 2)) == "03/31/2020 12:01:02 AM"
    ensures ToDateString(DateTimeFields(2020, 3, 31, 1, 1, 2)) == "03/31/2020 01:01:02 AM"
    ensures ToDateString(DateTimeFields(2020, 3, 31, 11, 1, 2)) == "03/31/2020 11:01:02 AM"
    ensures ToDateString(DateTimeFields(2020, 3, 31, 12, 1, 2)) == "03/31/2020 12:01:02 PM"
    ensures ToDateString(DateTimeFields(2020, 3, 31, 13, 1, 2)) == "03/31/2020 01:01:02 PM"
    ensures ToDateString(DateTimeFields(2020, 3, 31, 23, 1, 2)) == "03/31/2020 11:01:02 PM"
    ensures ToDateString(DateTimeFields(2020, 3, 31, 0, 0, 0)) == "03/31/2020 12:00:00 AM"
    ensures ToDateString(DateTimeFields(2020, 3, 31, 12, 0, 0)) == "03/31/2020 12:00:00 PM"
  {
  }

  // ---------------------------------------------------------------------------------------------
  // Tags
  // ---------------------------------------------------------------------------------------------

  /** A tag containing a space is wrapped in double quotes; any other tag is written as is. */
  function Quote(tag: string): (q: string)
    ensures (' ' in tag) <==> q != tag
    ensures ' ' in tag ==> |q| == |tag| + 2 && q[0] == '"' && q[|q| - 1] == '"' && q[1..|q| - 1] == tag
  {
    if ' ' in tag then "\"" + tag + "\"" else tag
  }

  /** The value of the TAGS line: the quoted tags, in order, separated by commas. */
  function TagsValue(tags: seq<string>): string {
    Join(seq(|tags|, i requires 0 <= i < |tags| => Quote(tags[i])), ",")
  }

  function Unquote(t: string): string {
    if |t| >= 2 && t[0] == '"' && t[|t| - 1] == '"' then t[1..|t| - 1] else t
  }

  /** Reads a TAGS value back into tags. */
  function ReadTags(v: string): seq<string> {
    if v == "" then []
    else
      var parts := Split(v, ',');
      seq(|parts|, i requires 0 <= i < |parts| => Unquote(parts[i]))
  }

  /** Tags the TAGS line can carry unambiguously: non-empty, without commas or double quotes. */
  predicate PlainTag(tag: string) {
    tag != "" && ',' !in tag && '"' !in tag
  }

  /** Unquoting gives every plain tag back, and a quoted plain tag is non-empty and free of commas. */
  lemma QuoteRoundTrip(tag: string)
    requires PlainTag(tag)
    ensures Unquote(Quote(tag)) == tag && ',' !in Quote(tag) && Quote(tag) != ""
  {
    if ' ' !in tag && |tag| >= 2 {
      assert tag[0] != '"';
    }
  }

  /** Quoting adds no comma. */
  lemma QuoteAddsNoComma(tag: string)
    requires ',' !in tag
    ensures ',' !in Quote(tag)
  {
    if ' ' in tag {
      var q := Quote(tag);
      assert q == ['"'] + tag + ['"'];
    }
  }

  /**
   * The TAGS value is the tags as `Quote` writes them, separated by commas: split at commas, the
   * value of comma-free tags gives back each quoted tag, in order. No tags give the empty value.
   */
  lemma TagsValueSplits(tags: seq<string>)
    requires forall i :: 0 <= i < |tags| ==> ',' !in tags[i]
    ensures |tags| == 0 ==> TagsValue(tags) == ""
    ensures |tags| > 0 ==> Split(TagsValue(tags), ',') == seq(|tags|, i requires 0 <= i < |tags| => Quote(tags[i]))
  {
    var quoted := seq(|tags|, i requires 0 <= i < |tags| => Quote(tags[i]));
    forall i | 0 <= i < |tags|
      ensures ',' !in quoted[i]
    {
      QuoteAddsNoComma(tags[i]);
    }
    if |tags| > 0 {
      SplitJoin(quoted, ',');
    }
  }

  /** A tag holding a space is quoted in the TAGS value; one without is not. */
  lemma TagsValueExample()
    ensures TagsValue(["a b", "c"]) == "\"a b\",c"
  {
    var tags := ["a b", "c"];
    assert ' ' in tags[0] && ' ' !in tags[1];
    var quoted := seq(|tags|, i requires 0 <= i < |tags| => Quote(tags[i]));
    assert quoted[0] == "\"a b\"" && quoted[1] == "c";
    assert quoted[1..] == [quoted[1]];
    assert Join(quoted, ",") == quoted[0] + "," + quoted[1];
  }

  lemma {:induction false} JoinEmptyIff(xs: seq<string>, sep: string)
    requires forall i :: 0 <= i < |xs| ==> xs[i] != ""
    ensures Join(xs, sep) == "" <==> |xs| == 0
  {
    if |xs| >= 2 {
      assert |Join(xs, sep)| >= |xs[0]|;
    }
  }

  /** The TAGS line loses nothing for plain tags: order and duplicates come back. */
  lemma {:induction false} TagsRoundTrip(tags: seq<string>)
    requires PlainTags(tags)
    ensures ReadTags(TagsValue(tags)) == tags
  {
    var quoted := seq(|tags|, i requires 0 <= i < |tags| => Quote(tags[i]));
    forall i | 0 <= i < |tags|
      ensures Unquote(quoted[i]) == tags[i] && ',' !in quoted[i] && quoted[i] != ""
    {
      QuoteRoundTrip(tags[i]);
    }
    JoinEmptyIff(quoted, ",");
    if |tags| > 0 {
      SplitJoin(quoted, ',');
    }
  }

  // ---------------------------------------------------------------------------------------------
  // Entry blocks
  // ---------------------------------------------------------------------------------------------

  /** `Substring(7)` throws on a shorter entry path; the whole export fails with it. */
  datatype FormatError = EntryPathTooShort(localPath: string)

  /** The length of the `/entry/` prefix the BASENAME line drops. */
  const EntryPathPrefixLength := 7

  const FieldDelimiter := "-----"
  const EntryDelimiter := "--------"

  function StatusLine(isDraft: bool): string {
    "STATUS: " + (if isDraft then "Draft" else "Publish")
  }

  /**
   * The lines written for one entry: metadata, the multi-line BODY field and the entry
   * delimiter. BASENAME appears only for an entry with a location, DATE only for an entry with an
   * update time, converted to the machine's local time by `toLocal`.
   */
  function Block(e: Entry, toLocal: Timestamp -> DateTime): (r: Result<seq<string>, FormatError>)
    ensures r.Failure? <==> Unwritable(e)
    ensures r.Failure? ==> r.error == EntryPathTooShort(e.entryUri.value.localPath)
    ensures r.Success? ==> 10 <= |r.value| <= 12 && r.value[0] == "AUTHOR: " + e.author && r.value[|r.value| - 1] == EntryDelimiter
  {
    var basename :- match e.entryUri
      case None => Success([])
      case Some(uri) =>
        if |uri.localPath| < EntryPathPrefixLength then Failure(EntryPathTooShort(uri.localPath))
        else Success(["BASENAME: " + uri.localPath[EntryPathPrefixLength..]]);
    var date := match e.updated
      case None => []
      case Some(t) => ["DATE: " + ToDateString(toLocal(t))];
    Success(["AUTHOR: " + e.author, "TITLE: " + e.title] + basename
      + [StatusLine(e.isDraft), "CONVERT BREAKS: 0"] + date
      + ["TAGS: " + TagsValue(e.categories), FieldDelimiter, "BODY:", e.formattedContent, FieldDelimiter, EntryDelimiter])
  }

  /** The lines of every item rendered in turn; the first failure ends the export. */
  function RenderAll<T>(render: T -> Result<seq<string>, FormatError>, xs: seq<T>): Result<seq<string>, FormatError>
  {
    if |xs| == 0 then Success([])
    else Prepend(render(xs[0]), RenderAll(render, xs[1..]))
  }

  function Renderer(toLocal: Timestamp -> DateTime): Entry -> Result<seq<string>, FormatError> {
    e => Block(e, toLocal)
  }

  /**
   * `MovableTypeFormatter.Format`: the blocks of all entries, in input order. The export fails
   * exactly when some entry's location is too short to drop the prefix from.
   */
  function Format(entries: seq<Entry>, toLocal: Timestamp -> DateTime): (r: Result<seq<string>, FormatError>)
    ensures r.Failure? <==> exists i :: 0 <= i < |entries| && Unwritable(entries[i])
  {
    RenderAllFailsIff(Renderer(toLocal), entries);
    RendererFailsIff(entries, toLocal);
    RenderAll(Renderer(toLocal), entries)
  }

  /** The first block's lines before the rest's, or the first failure. */
  function Prepend(first: Result<seq<string>, FormatError>, rest: Result<seq<string>, FormatError>): Result<seq<string>, FormatError> {
    match first
    case Failure(e) => Failure(e)
    case Success(lines) =>
      match rest
      case Failure(e) => Failure(e)
      case Success(more) => Success(lines + more)
  }

  /** The bytes' text: every line followed by the writer's "\n". */
  function Text(lines: seq<string>): string {
    if |lines| == 0 then "" else lines[0] + "\n" + Text(lines[1..])
  }

  /** An entry the formatter cannot write: its location is shorter than the `/entry/` prefix. */
  predicate Unwritable(e: Entry) {
    e.entryUri.Some? && |e.entryUri.value.localPath| < EntryPathPrefixLength
  }

  /** Rendering fails exactly when some item fails to render. */
  lemma {:induction false} RenderAllFailsIff<T>(render: T -> Result<seq<string>, FormatError>, xs: seq<T>)
    ensures RenderAll(render, xs).Failure? <==> exists i :: 0 <= i < |xs| && render(xs[i]).Failure?
    decreases |xs|
  {
    if |xs| > 0 {
      RenderAllFailsIff(render, xs[1..]);
      if exists i :: 0 <= i < |xs[1..]| && render(xs[1..][i]).Failure? {
        var i :| 0 <= i < |xs[1..]| && render(xs[1..][i]).Failure?;
        assert render(xs[i + 1]).Failure?;
      }
      if exists i :: 0 <= i < |xs| && render(xs[i]).Failure? {
        var i :| 0 <= i < |xs| && render(xs[i]).Failure?;
        if i > 0 {
          assert render(xs[1..][i - 1]).Failure?;
        }
      }
    }
  }

  lemma RendererFailsIff(entries: seq<Entry>, toLocal: Timestamp -> DateTime)
    ensures forall i :: 0 <= i < |entries| ==> (Renderer(toLocal)(entries[i]).Failure? <==> Unwritable(entries[i]))
  {
    forall i | 0 <= i < |entries|
      ensures Renderer(toLocal)(entries[i]).Failure? <==> Unwritable(entries[i])
    {
      assert Renderer(toLocal)(entries[i]) == Block(entries[i], toLocal);
    }
  }

  lemma ConcatAssociative<T>(x: seq<T>, y: seq<T>, z: seq<T>)
    ensures x + y + z == x + (y + z)
  {
  }

  /** Prepending a block to a longer successful rest extends the combined lines by the same lines. */
  lemma PrependExtends(first: Result<seq<string>, FormatError>, rest: Result<seq<string>, FormatError>, more: seq<string>)
    requires first.Success? && rest.Success?
    ensures Prepend(first, Success(rest.value + more)) == Success(Prepend(first, rest).value + more)
  {
    ConcatAssociative(first.value, rest.value, more);
  }

  /** Rendering consecutive runs of items gives the lines of each run, in order. */
  lemma {:induction false} RenderAllConcatenates<T>(render: T -> Result<seq<string>, FormatError>, a: seq<T>, b: seq<T>)
    requires RenderAll(render, a).Success? && RenderAll(render, b).Success?
    ensures RenderAll(render, a + b) == Success(RenderAll(render, a).value + RenderAll(render, b).value)
    decreases |a|
  {
    if |a| == 0 {
      assert a + b == b;
      assert RenderAll(render, a).value + RenderAll(render, b).value == RenderAll(render, b).value;
    } else {
      RenderAllConcatenates(render, a[1..], b);
      assert (a + b)[1..] == a[1..] + b;
      assert (a + b)[0] == a[0];
      PrependExtends(render(a[0]), RenderAll(render, a[1..]), RenderAll(render, b).value);
    }
  }

  /** The output for consecutive runs of entries is the output for each run, in order. */
  lemma FormatConcatenates(a: seq<Entry>, b: seq<Entry>, toLocal: Timestamp -> DateTime)
    requires Format(a, toLocal).Success? && Format(b, toLocal).Success?
    ensures Format(a + b, toLocal) == Success(Format(a, toLocal).value + Format(b, toLocal).value)
  {
    RenderAllConcatenates(Renderer(toLocal), a, b);
  }

  /** An entry with only a title, a draft flag and formatted content, as the multiple-entry unit test builds it. */
  function BareEntry(title: string, isDraft: bool, content: string, formattedContent: string): Entry {
    Entry(None, None, None, title, "", [], isDraft, None, None, "", content, "", formattedContent)
  }

  /**
   * The multiple-entry unit test: two entries without location, update time, author or tags give
   * two blocks without BASENAME and DATE lines, whatever the time zone. The test trims the space
   * that ends the empty AUTHOR and TAGS lines before comparing.
   */
  lemma FormatMultipleEntriesTest(toLocal: Timestamp -> DateTime)
    ensures Format([BareEntry("entry0", false, "entry0-content", "entry0-formatted-content"),
                    BareEntry("entry1", true, "entry1-content", "entry1-formatted-content")], toLocal)
         == Success(["AUTHOR: ", "TITLE: entry0", "STATUS: Publish", "CONVERT BREAKS: 0", "TAGS: ",
                     "-----", "BODY:", "entry0-formatted-content", "-----", "--------",
                     "AUTHOR: ", "TITLE: entry1", "STATUS: Draft", "CONVERT BREAKS: 0", "TAGS: ",
                     "-----", "BODY:", "entry1-formatted-content", "-----", "--------"])
  {
    var e0 := BareEntry("entry0", false, "entry0-content", "entry0-formatted-content");
    var e1 := BareEntry("entry1", true, "entry1-content", "entry1-formatted-content");
    var b0 := ["AUTHOR: ", "TITLE: entry0", "STATUS: Publish", "CONVERT BREAKS: 0", "TAGS: ",
               "-----", "BODY:", "entry0-formatted-content", "-----", "--------"];
    var b1 := ["AUTHOR: ", "TITLE: entry1", "STATUS: Draft", "CONVERT BREAKS: 0", "TAGS: ",
               "-----", "BODY:", "entry1-formatted-content", "-----", "--------"];
    BareBlock(e0, toLocal, b0);
    BareBlock(e1, toLocal, b1);
    var render := Renderer(toLocal);
    assert render(e0) == Success(b0) && render(e1) == Success(b1);
    assert RenderAll(render, [e1]) == Success(b1) by {
      assert [e1][1..] == [];
      assert b1 + [] == b1;
    }
    assert [e0, e1][1..] == [e1];
    assert RenderAll(render, [e0, e1]) == Success(b0 + b1);
    assert Format([e0, e1], toLocal) == Success(b0 + b1);
    assert b0 + b1 == ["AUTHOR: ", "TITLE: entry0", "STATUS: Publish", "CONVERT BREAKS: 0", "TAGS: ",
                       "-----", "BODY:", "entry0-formatted-content", "-----", "--------",
                       "AUTHOR: ", "TITLE: entry1", "STATUS: Draft", "CONVERT BREAKS: 0", "TAGS: ",
                       "-----", "BODY:", "entry1-formatted-content", "-----", "--------"];
  }

  /** The block of an entry without location, update time or tags, line by line. */
  lemma BareBlock(e: Entry, toLocal: Timestamp -> DateTime, b: seq<string>)
    requires e.entryUri.None? && e.updated.None? && e.categories == []
    requires |b| == 10 && b[0] == "AUTHOR: " + e.author && b[1] == "TITLE: " + e.title && b[2] == StatusLine(e.isDraft)
    requires b[3] == "CONVERT BREAKS: 0" && b[4] == "TAGS: " && b[5] == FieldDelimiter && b[6] == "BODY:"
    requires b[7] == e.formattedContent && b[8] == FieldDelimiter && b[9] == EntryDelimiter
    ensures Block(e, toLocal) == Success(b)
  {
    BlockLayout(e, toLocal);
    assert TagsValue([]) == "";
    assert "TAGS: " + "" == "TAGS: ";
    var lines := Block(e, toLocal).value;
    assert forall k :: 0 <= k < 10 ==> lines[k] == b[k];
    assert lines == b;
  }

  /** The test entry's update time: midnight of 2020-03-31 at +09:00. */
  const TestUpdated := Timestamp(DateTimeFields(2020, 3, 31, 0, 0, 0), 9 * 60)

  /** The entry of the single-entry unit test. */
  function SingleTestEntry(): Entry {
    Entry(Some(Uri("tag:blog.example.com,2020:entry0", "blog.example.com,2020:entry0")),
          Some(Uri("https://blog.example.com/atom/entry/0/", "/atom/entry/0/")),
          Some(Uri("https://example.com/entry/0/", "/entry/0/")),
          "entry0", "entry0-author0 entry0-author1",
          ["entry0-category0", "entry0-category1", "entry0-category2"], false,
          Some(Timestamp(DateTimeFields(2020, 3, 31, 0, 0, 0), 0)), Some(TestUpdated),
          "entry0-summary", "entry0-content", "text/x-hatena-syntax", "entry0-formatted-content")
  }

  /**
   * The single-entry unit test, on a machine at +09:00 (where the update time's local time is
   * its own wall-clock time): BASENAME drops `/entry/`, DATE is midnight written as 12 AM, and the
   * tags, holding no space, are joined unquoted. The TAGS line is written in pieces, the tag names
   * and the commas between them.
   */
  lemma FormatSingleEntryTest(toLocal: Timestamp -> DateTime)
    requires toLocal(TestUpdated) == DateTimeFields(2020, 3, 31, 0, 0, 0)
    ensures Format([SingleTestEntry()], toLocal)
         == Success(["AUTHOR: entry0-author0 entry0-author1", "TITLE: entry0", "BASENAME: 0/", "STATUS: Publish",
                     "CONVERT BREAKS: 0", "DATE: 03/31/2020 12:00:00 AM",
                     "TAGS: " + "entry0-category0" + "," + "entry0-category1" + "," + "entry0-category2",
                     "-----", "BODY:", "entry0-formatted-content", "-----", "--------"])
  {
    var e := SingleTestEntry();
    var expected := SingleTestBlockLines();
    SingleTestBlock(toLocal);
    var render := Renderer(toLocal);
    assert render(e) == Success(expected);
    assert [e][1..] == [];
    assert expected + [] == expected;
  }

  /** The single-entry unit test's expected lines. */
  function SingleTestBlockLines(): seq<string> {
    ["AUTHOR: entry0-author0 entry0-author1", "TITLE: entry0", "BASENAME: 0/", "STATUS: Publish",
     "CONVERT BREAKS: 0", "DATE: 03/31/2020 12:00:00 AM",
     "TAGS: " + "entry0-category0" + "," + "entry0-category1" + "," + "entry0-category2",
     "-----", "BODY:", "entry0-formatted-content", "-----", "--------"]
  }

  /** The test entry's block is the expected lines. */
  lemma SingleTestBlock(toLocal: Timestamp -> DateTime)
    requires toLocal(TestUpdated) == DateTimeFields(2020, 3, 31, 0, 0, 0)
    ensures Block(SingleTestEntry(), toLocal) == Success(SingleTestBlockLines())
  {
    TestDate();
    TestTags();
    SingleTestLines();
    FullBlock(SingleTestEntry(), toLocal, SingleTestBlockLines());
  }

  /** The test's DATE line: midnight, written as 12 AM. */
  lemma TestDate()
    ensures "DATE: " + ToDateString(DateTimeFields(2020, 3, 31, 0, 0, 0)) == "DATE: 03/31/2020 12:00:00 AM"
  {
    ToDateStringExamples();
    DateLine();
  }

  /** The test's fixed lines, each a prefix followed by the field's text. */
  lemma SingleTestLines()
    ensures "AUTHOR: " + "entry0-author0 entry0-author1" == "AUTHOR: entry0-author0 entry0-author1"
    ensures "TITLE: " + "entry0" == "TITLE: entry0"
    ensures "BASENAME: " + "/entry/0/"[EntryPathPrefixLength..] == "BASENAME: 0/"
    ensures StatusLine(false) == "STATUS: Publish"
  {
    AuthorLine();
    assert "/entry/0/"[EntryPathPrefixLength..] == "0/";
  }

  lemma AuthorLine()
    ensures "AUTHOR: " + "entry0-author0 entry0-author1" == "AUTHOR: entry0-author0 entry0-author1"
  {
  }

  lemma DateLine()
    ensures "DATE: " + "03/31/2020 12:00:00 AM" == "DATE: 03/31/2020 12:00:00 AM"
  {
  }

  /** The block of an entry with a location and an update time, line by line. */
  lemma FullBlock(e: Entry, toLocal: Timestamp -> DateTime, b: seq<string>)
    requires e.entryUri.Some? && |e.entryUri.value.localPath| >= EntryPathPrefixLength && e.updated.Some?
    requires |b| == 12 && b[0] == "AUTHOR: " + e.author && b[1] == "TITLE: " + e.title
    requires b[2] == "BASENAME: " + e.entryUri.value.localPath[EntryPathPrefixLength..] && b[3] == StatusLine(e.isDraft)
    requires b[4] == "CONVERT BREAKS: 0" && b[5] == "DATE: " + ToDateString(toLocal(e.updated.value))
    requires b[6] == "TAGS: " + TagsValue(e.categories) && b[7] == FieldDelimiter && b[8] == "BODY:"
    requires b[9] == e.formattedContent && b[10] == FieldDelimiter && b[11] == EntryDelimiter
    ensures Block(e, toLocal) == Success(b)
  {
    BlockLayout(e, toLocal);
    var lines := Block(e, toLocal).value;
    assert forall k :: 0 <= k < 12 ==> lines[k] == b[k];
    assert lines == b;
  }

  /** The test's tags, holding no space, are joined unquoted with commas. */
  lemma TestTags()
    ensures "TAGS: " + TagsValue(["entry0-category0", "entry0-category1", "entry0-category2"])
         == "TAGS: " + "entry0-category0" + "," + "entry0-category1" + "," + "entry0-category2"
  {
    var t0, t1, t2 := "entry0-category0", "entry0-category1", "entry0-category2";
    assert ' ' !in t0 && ' ' !in t1 && ' ' !in t2;
    var tags := [t0, t1, t2];
    var quoted := seq(|tags|, i requires 0 <= i < |tags| => Quote(tags[i]));
    assert quoted == tags;
    assert tags[1..] == [t1, t2] && tags[1..][1..] == [t2];
    assert Join([t2], ",") == t2;
    assert Join([t1, t2], ",") == t1 + "," + t2;
    assert Join(tags, ",") == t0 + "," + (t1 + "," + t2);
    assert "TAGS: " + (t0 + "," + (t1 + "," + t2)) == "TAGS: " + t0 + "," + t1 + "," + t2;
  }

  // ---------------------------------------------------------------------------------------------
  // Reading an export back
  // ---------------------------------------------------------------------------------------------

  /** What one block records about an entry; `date` is the DATE value as written, which `ParseDateString` reads. */
  datatype MtRecord = MtRecord(author: string, title: string, basename: Option<string>, isDraft: bool,
                               date: Option<string>, tags: seq<string>, body: string)

  /** What the formatter means to record about `e`: BASENAME is the location without `/entry/`, the body the formatted content. */
  function Record(e: Entry, toLocal: Timestamp -> DateTime): MtRecord
    requires !Unwritable(e)
  {
    MtRecord(e.author, e.title,
             if e.entryUri.Some? then Some(e.entryUri.value.localPath[EntryPathPrefixLength..]) else None,
             e.isDraft,
             if e.updated.Some? then Some(ToDateString(toLocal(e.updated.value))) else None,
             e.categories, e.formattedContent)
  }

  /** A value read from the lines and the index of the first line after it. */
  datatype Read<T> = Read(value: T, next: nat)

  /** The value of line `i` when it is the field `key`. */
  function ReadField(ls: seq<string>, i: nat, key: string): Option<string> {
    if i < |ls| && key <= ls[i] then Some(ls[i][|key|..]) else None
  }

  function ReadStatus(ls: seq<string>, i: nat): Option<bool> {
    if i < |ls| && ls[i] == StatusLine(true) then Some(true)
    else if i < |ls| && ls[i] == StatusLine(false) then Some(false)
    else None
  }

  /** An optional DATE line at `i`: absent, or present with the date's text. */
  function ReadDate(ls: seq<string>, i: nat): Option<Read<Option<string>>> {
    match ReadField(ls, i, "DATE: ")
    case None => Some(Read(None, i))
    case Some(text) => Some(Read(Some(text), i + 1))
  }

  /** The TAGS line and the multi-line BODY field closing a block at `k`. */
  function ReadTail(ls: seq<string>, k: nat): Option<Read<(seq<string>, string)>> {
    var tags :- ReadField(ls, k, "TAGS: ");
    if k + 5 < |ls| && ls[k + 1] == FieldDelimiter && ls[k + 2] == "BODY:" && ls[k + 4] == FieldDelimiter
       && ls[k + 5] == EntryDelimiter
    then Some(Read((ReadTags(tags), ls[k + 3]), k + 6))
    else None
  }

  /** Reads one entry block starting at line `i`. */
  function ReadBlock(ls: seq<string>, i: nat): (r: Option<Read<MtRecord>>)
    ensures r.Some? ==> i < r.value.next <= |ls|
  {
    var author :- ReadField(ls, i, "AUTHOR: ");
    var title :- ReadField(ls, i + 1, "TITLE: ");
    var basename := ReadField(ls, i + 2, "BASENAME: ");
    var j := if basename.Some? then i + 3 else i + 2;
    var isDraft :- ReadStatus(ls, j);
    if !(j + 1 < |ls| && ls[j + 1] == "CONVERT BREAKS: 0") then None
    else
      var date :- ReadDate(ls, j + 2);
      var tail :- ReadTail(ls, date.next);
      Some(Read(MtRecord(author, title, basename, isDraft, date.value, tail.value.0, tail.value.1), tail.next))
  }

  /** Reads consecutive records from line `i` to the end with `readOne`, each read moving forward. */
  function ReadAll<R>(readOne: (seq<string>, nat) -> Option<Read<R>>, ls: seq<string>, i: nat): Option<seq<R>>
    decreases |ls| - i
  {
    if i >= |ls| then Some([])
    else
      var first :- readOne(ls, i);
      if first.next <= i then None
      else
        var rest :- ReadAll(readOne, ls, first.next);
        Some([first.value] + rest)
  }

  /** An entry whose every field survives the export: a writable location and plain tags. */
  predicate Exportable(e: Entry) {
    !Unwritable(e) && PlainTags(e.categories)
  }

  predicate PlainTags(tags: seq<string>) {
    forall i :: 0 <= i < |tags| ==> PlainTag(tags[i])
  }

  /** The lines of a block, field by field. */
  lemma BlockLayout(e: Entry, toLocal: Timestamp -> DateTime)
    requires !Unwritable(e)
    ensures Block(e, toLocal).Success?
    ensures var b := Block(e, toLocal).value;
      var n0 := if e.entryUri.Some? then 1 else 0;
      var n1 := if e.updated.Some? then 1 else 0;
      && |b| == 10 + n0 + n1
      && b[0] == "AUTHOR: " + e.author
      && b[1] == "TITLE: " + e.title
      && (e.entryUri.Some? ==> b[2] == "BASENAME: " + e.entryUri.value.localPath[EntryPathPrefixLength..])
      && b[2 + n0] == StatusLine(e.isDraft)
      && b[3 + n0] == "CONVERT BREAKS: 0"
      && (e.updated.Some? ==> b[4 + n0] == "DATE: " + ToDateString(toLocal(e.updated.value)))
      && b[4 + n0 + n1] == "TAGS: " + TagsValue(e.categories)
      && b[5 + n0 + n1] == FieldDelimiter
      && b[6 + n0 + n1] == "BODY:"
      && b[7 + n0 + n1] == e.formattedContent
      && b[8 + n0 + n1] == FieldDelimiter
      && b[9 + n0 + n1] == EntryDelimiter
  {
  }

  lemma NotPrefix(key: string, other: string, line: string)
    requires |key| > 0 && |other| > 0 && key[0] != other[0] && other <= line
    ensures !(key <= line)
  {
    assert line[0] == other[0];
  }

  /** The lines of `b` sit in `ls` from line `i` on. */
  predicate LinesAt(ls: seq<string>, i: nat, b: seq<string>) {
    i + |b| <= |ls| && forall k :: 0 <= k < |b| ==> ls[i + k] == b[k]
  }

  /** The metadata lines before DATE read back, and DATE is looked for right after them. */
  lemma {:induction false} HeadRoundTrip(e: Entry, toLocal: Timestamp -> DateTime, ls: seq<string>, i: nat)
    requires !Unwritable(e) && Block(e, toLocal).Success? && LinesAt(ls, i, Block(e, toLocal).value)
    ensures var r := Record(e, toLocal);
      var j := if r.basename.Some? then i + 3 else i + 2;
      && ReadField(ls, i, "AUTHOR: ") == Some(r.author)
      && ReadField(ls, i + 1, "TITLE: ") == Some(r.title)
      && ReadField(ls, i + 2, "BASENAME: ") == r.basename
      && ReadStatus(ls, j) == Some(r.isDraft)
      && j + 1 < |ls| && ls[j + 1] == "CONVERT BREAKS: 0"
  {
    BlockLayout(e, toLocal);
    var b := Block(e, toLocal).value;
    var n0 := if e.entryUri.Some? then 1 else 0;
    assert ls[i] == b[0] && ls[i + 1] == b[1] && ls[i + 2] == b[2];
    assert ls[i + 2 + n0] == b[2 + n0] && ls[i + 3 + n0] == b[3 + n0];
    if e.entryUri.None? {
      NotPrefix("BASENAME: ", "STATUS: ", ls[i + 2]);
    }
  }

  /** The DATE value a record carries is the entry's local update time, which the date parser reads back. */
  lemma RecordDateParses(e: Entry, toLocal: Timestamp -> DateTime)
    requires !Unwritable(e)
    ensures Record(e, toLocal).date.Some? <==> e.updated.Some?
    ensures e.updated.Some? ==> ParseDateString(Record(e, toLocal).date.value) == Some(toLocal(e.updated.value))
  {
    if e.updated.Some? {
      DateStringRoundTrip(toLocal(e.updated.value));
    }
  }

  /** The line after the optional DATE line of `e`'s block when the block starts at line `i`. */
  function DateEnd(e: Entry, i: nat): nat {
    i + 4 + (if e.entryUri.Some? then 1 else 0) + (if e.updated.Some? then 1 else 0)
  }

  /** The optional DATE line reads back as the text of the local update time. */
  lemma {:induction false} DateRoundTrip(e: Entry, toLocal: Timestamp -> DateTime, ls: seq<string>, i: nat)
    requires !Unwritable(e) && Block(e, toLocal).Success? && LinesAt(ls, i, Block(e, toLocal).value)
    ensures var r := Record(e, toLocal);
      var j := if r.basename.Some? then i + 3 else i + 2;
      ReadDate(ls, j + 2) == Some(Read(r.date, DateEnd(e, i)))
  {
    BlockLayout(e, toLocal);
    var b := Block(e, toLocal).value;
    var n0 := if e.entryUri.Some? then 1 else 0;
    var n1 := if e.updated.Some? then 1 else 0;
    var j := i + 4 + n0;
    assert ls[j] == b[4 + n0];
    if e.updated.Some? {
      assert ReadField(ls, j, "DATE: ") == Some(ToDateString(toLocal(e.updated.value)));
    } else {
      NotPrefix("DATE: ", "TAGS: ", ls[j]);
    }
  }

  /** The TAGS line and the BODY field read back as the tags and the formatted content. */
  lemma {:induction false} TailRoundTrip(e: Entry, toLocal: Timestamp -> DateTime, ls: seq<string>, i: nat)
    requires Exportable(e) && Block(e, toLocal).Success? && LinesAt(ls, i, Block(e, toLocal).value)
    ensures var r := Record(e, toLocal);
      ReadTail(ls, DateEnd(e, i)) == Some(Read((r.tags, r.body), i + |Block(e, toLocal).value|))
  {
    BlockLayout(e, toLocal);
    var b := Block(e, toLocal).value;
    var k0 := |b| - 6;
    var k := i + k0;
    assert ls[k] == b[k0] && ls[k + 1] == b[k0 + 1] && ls[k + 2] == b[k0 + 2];
    assert ls[k + 3] == b[k0 + 3] && ls[k + 4] == b[k0 + 4] && ls[k + 5] == b[k0 + 5];
    assert ReadField(ls, k, "TAGS: ") == Some(TagsValue(e.categories));
    TagsRoundTrip(e.categories);
  }

  /** A block reads back as the record of its entry, wherever it sits among other lines. */
  lemma {:induction false} BlockRoundTrip(e: Entry, toLocal: Timestamp -> DateTime, pre: seq<string>, post: seq<string>)
    requires Exportable(e)
    ensures Block(e, toLocal).Success?
    ensures ReadBlock(pre + Block(e, toLocal).value + post, |pre|)
         == Some(Read(Record(e, toLocal), |pre| + |Block(e, toLocal).value|))
  {
    BlockLayout(e, toLocal);
    var b := Block(e, toLocal).value;
    var ls := pre + b + post;
    var i := |pre|;
    LinesInMiddle(pre, b, post);
    BlockReadsBack(e, toLocal, ls, i);
  }

  /** A block found at line `i` reads back as the record of its entry, ending where the block ends. */
  lemma BlockReadsBack(e: Entry, toLocal: Timestamp -> DateTime, ls: seq<string>, i: nat)
    requires Exportable(e) && Block(e, toLocal).Success? && LinesAt(ls, i, Block(e, toLocal).value)
    ensures ReadBlock(ls, i) == Some(Read(Record(e, toLocal), i + |Block(e, toLocal).value|))
  {
    HeadRoundTrip(e, toLocal, ls, i);
    DateRoundTrip(e, toLocal, ls, i);
    TailRoundTrip(e, toLocal, ls, i);
    ReadBlockOfFields(ls, i, Record(e, toLocal), DateEnd(e, i), i + |Block(e, toLocal).value|);
  }

  /** `ReadBlock` assembles a record from fields that each read back at their place. */
  lemma ReadBlockOfFields(ls: seq<string>, i: nat, r: MtRecord, dateNext: nat, next: nat)
    requires ReadField(ls, i, "AUTHOR: ") == Some(r.author)
    requires ReadField(ls, i + 1, "TITLE: ") == Some(r.title)
    requires ReadField(ls, i + 2, "BASENAME: ") == r.basename
    requires var j := if r.basename.Some? then i + 3 else i + 2;
      && ReadStatus(ls, j) == Some(r.isDraft)
      && j + 1 < |ls| && ls[j + 1] == "CONVERT BREAKS: 0"
      && ReadDate(ls, j + 2) == Some(Read(r.date, dateNext))
    requires ReadTail(ls, dateNext) == Some(Read((r.tags, r.body), next))
    ensures ReadBlock(ls, i) == Some(Read(r, next))
  {
  }

  lemma LinesInMiddle(pre: seq<string>, b: seq<string>, post: seq<string>)
    ensures LinesAt(pre + b + post, |pre|, b)
  {
    var ls := pre + b + post;
    forall k | 0 <= k < |b|
      ensures ls[|pre| + k] == b[k]
    {
    }
  }

  /** The records the formatter means to write, one per entry, in order. */
  function Records(entries: seq<Entry>, toLocal: Timestamp -> DateTime): (rs: seq<MtRecord>)
    requires forall i :: 0 <= i < |entries| ==> !Unwritable(entries[i])
    ensures |rs| == |entries|
  {
    seq(|entries|, i requires 0 <= i < |entries| => Record(entries[i], toLocal))
  }

  /** `x` renders to non-empty lines that `readOne` reads back as `r`, whatever surrounds them. */
  ghost predicate RoundTrips<T, R>(render: T -> Result<seq<string>, FormatError>,
                                   readOne: (seq<string>, nat) -> Option<Read<R>>, x: T, r: R)
  {
    && render(x).Success?
    && |render(x).value| > 0
    && forall p: seq<string>, q: seq<string> ::
         readOne(p + render(x).value + q, |p|) == Some(Read(r, |p| + |render(x).value|))
  }

  /** When every item round-trips on its own, the rendering of all items reads back as all their records, in order. */
  lemma {:induction false} RenderAllRoundTrip<T, R>(render: T -> Result<seq<string>, FormatError>,
                                                    readOne: (seq<string>, nat) -> Option<Read<R>>,
                                                    xs: seq<T>, rs: seq<R>, pre: seq<string>)
    requires |rs| == |xs|
    requires forall i :: 0 <= i < |xs| ==> RoundTrips(render, readOne, xs[i], rs[i])
    ensures RenderAll(render, xs).Success?
    ensures ReadAll(readOne, pre + RenderAll(render, xs).value, |pre|) == Some(rs)
    decreases |xs|
  {
    if |xs| == 0 {
      assert pre + RenderAll(render, xs).value == pre;
    } else {
      assert RoundTrips(render, readOne, xs[0], rs[0]);
      var b := render(xs[0]).value;
      assert forall i :: 0 <= i < |xs[1..]| ==> xs[1..][i] == xs[i + 1] && rs[1..][i] == rs[i + 1];
      RenderAllRoundTrip(render, readOne, xs[1..], rs[1..], pre + b);
      var rest := RenderAll(render, xs[1..]).value;
      assert RenderAll(render, xs).value == b + rest;
      ConcatAssociative(pre, b, rest);
      var ls := pre + b + rest;
      assert readOne(ls, |pre|) == Some(Read(rs[0], |pre| + |b|));
      assert ReadAll(readOne, ls, |pre + b|) == Some(rs[1..]);
      assert rs == [rs[0]] + rs[1..];
    }
  }

  predicate AllExportable(entries: seq<Entry>) {
    forall i :: 0 <= i < |entries| ==> Exportable(entries[i])
  }

  /**
   * The export loses nothing the format can carry: reading the lines back yields, for every
   * entry in input order, its author, title, BASENAME, status, local update time, tags and
   * formatted body.
   */
  lemma FormatRoundTrip(entries: seq<Entry>, toLocal: Timestamp -> DateTime, pre: seq<string>)
    requires AllExportable(entries)
    ensures forall i :: 0 <= i < |entries| ==> !Unwritable(entries[i])
    ensures Format(entries, toLocal).Success?
    ensures ReadAll(ReadBlock, pre + Format(entries, toLocal).value, |pre|) == Some(Records(entries, toLocal))
  {
    assert forall i :: 0 <= i < |entries| ==> !Unwritable(entries[i]);
    var rs := Records(entries, toLocal);
    forall i | 0 <= i < |entries|
      ensures RoundTrips(Renderer(toLocal), ReadBlock, entries[i], rs[i])
    {
      BlockRoundTrips(entries[i], toLocal);
    }
    RenderAllRoundTrip(Renderer(toLocal), ReadBlock, entries, rs, pre);
  }

  /** One exportable entry's block round-trips through `ReadBlock` wherever it sits. */
  lemma BlockRoundTrips(e: Entry, toLocal: Timestamp -> DateTime)
    requires Exportable(e)
    ensures RoundTrips(Renderer(toLocal), ReadBlock, e, Record(e, toLocal))
  {
    BlockLayout(e, toLocal);
    assert Renderer(toLocal)(e) == Block(e, toLocal);
    forall p: seq<string>, q: seq<string>
      ensures ReadBlock(p + Block(e, toLocal).value + q, |p|)
        == Some(Read(Record(e, toLocal), |p| + |Block(e, toLocal).value|))
    {
      BlockRoundTrip(e, toLocal, p, q);
    }
  }

  /** The file's text is the text of each entry's block, in order. */
  lemma {:induction false} TextConcatenates(a: seq<string>, b: seq<string>)
    ensures Text(a + b) == Text(a) + Text(b)
    decreases |a|
  {
    if |a| == 0 {
      assert a + b == b;
    } else {
      assert (a + b)[1..] == a[1..] + b;
      TextConcatenates(a[1..], b);
    }
  }
}

=== FILE: replace_tool.dfy ===
/**
 * The option handling of the replace tool's entry point: the tool's own options are scanned from
 * the arguments the shared parser passed through, validated, and turned into the editor, diff
 * settings and post mode of one run. The run itself starts only after the diff tool was found
 * available and the login succeeded.
 */
module ReplaceTool {
  import opened Wrappers
  import opened CliBase

  /** When the batch edit writes an entry back. */
  datatype PostMode = PostAlways | PostIfModified | PostNever

  /** The editor the run applies: literal replace or regular-expression replace. */
  datatype EditorChoice =
    | LiteralEditor(from: string, to: string)
    | RegexEditor(pattern: string, replacement: string)

  /** The arguments `DiffGenerator.Create` receives. */
  datatype DiffSettings = DiffSettings(quiet: bool, command: Option<string>, commandArgs: Option<string>,
                                       labelBefore: string, labelAfter: string)

  const LabelBefore := "置換前の本文"
  const LabelAfter := "置換後の本文"

  /** Everything one run is configured with. */
  datatype Config = Config(editor: EditorChoice, diff: DiffSettings, postMode: PostMode)

  /** A run ready to start: a logged-in client and its configuration. */
  datatype Session = Session(client: Client, config: Config)

  /** Why the entry point ended before starting the run. */
  datatype ToolError =
    | CommonArgsError(cause: CliError)
    | ToolArgsError(cause: CliError)
    | NoReplaceText
    | DiffUnavailable
    | LoginFailed(status: int)

  datatype ToolScan = ToolScan(from: Option<string>, to: Option<string>, regex: bool,
                               diffCommand: Option<string>, diffCommandArgs: Option<string>,
                               verbose: bool, dryRun: bool)

  const EmptyToolScan := ToolScan(None, None, false, None, None, false, false)

  const ValueOptions: set<string> := {"-from", "-to", "-diff-cmd", "-diff-cmd-args"}

  const FlagOptions: set<string> := {"-regex", "-v", "-n"}

  /** `v` stored as the value of the value option `opt`, overwriting any earlier one. */
  function WithValue(acc: ToolScan, opt: string, v: string): ToolScan
    requires opt in ValueOptions
  {
    if opt == "-from" then acc.(from := Some(v))
    else if opt == "-to" then acc.(to := Some(v))
    else if opt == "-diff-cmd" then acc.(diffCommand := Some(v))
    else acc.(diffCommandArgs := Some(v))
  }

  /** The switch of the flag `flag` set. */
  function WithFlag(acc: ToolScan, flag: string): ToolScan
    requires flag in FlagOptions
  {
    if flag == "-regex" then acc.(regex := true)
    else if flag == "-v" then acc.(verbose := true)
    else acc.(dryRun := true)
  }

  /**
   * The option loop of `Main`: an option that takes a value stores the next argument (failing
   * when there is none), a flag is set, and any other argument is ignored.
   */
  function ScanToolOptions(args: seq<string>, acc: ToolScan): (r: Result<ToolScan, CliError>)
    ensures r.Failure? ==> r.error.MissingValue? && r.error.option in ValueOptions
    ensures r.Success? ==> (acc.regex ==> r.value.regex) && (acc.verbose ==> r.value.verbose) && (acc.dryRun ==> r.value.dryRun)
    ensures r.Success? ==> (acc.from.Some? ==> r.value.from.Some?) && (acc.to.Some? ==> r.value.to.Some?)
    decreases |args|
  {
    if |args| == 0 then Success(acc)
    else if args[0] in ValueOptions then
      if |args| < 2 then Failure(MissingValue(args[0]))
      else ScanToolOptions(args[2..], WithValue(acc, args[0], args[1]))
    else if args[0] in FlagOptions then ScanToolOptions(args[1..], WithFlag(acc, args[0]))
    else ScanToolOptions(args[1..], acc)
  }

  /**
   * A value option given as the last argument, where the scan reads it as an option, fails with
   * `MissingValue` for that option.
   */
  lemma {:induction false} ToolTrailingOptionFails(args: seq<string>, acc: ToolScan, opt: string)
    requires opt in ValueOptions
    requires ScanToolOptions(args, acc).Success?
    ensures ScanToolOptions(args + [opt], acc) == Failure(MissingValue(opt))
    decreases |args|
  {
    var all := args + [opt];
    if |args| == 0 {
      assert all == [opt];
    } else if args[0] in ValueOptions {
      assert |args| >= 2;
      assert all[2..] == args[2..] + [opt];
      ToolTrailingOptionFails(args[2..], WithValue(acc, args[0], args[1]), opt);
    } else {
      assert all[1..] == args[1..] + [opt];
      var next := if args[0] in FlagOptions then WithFlag(acc, args[0]) else acc;
      ToolTrailingOptionFails(args[1..], next, opt);
    }
  }

  /**
   * A later value overwrites an earlier one: after any arguments that scan successfully, a final
   * `opt v` pair sets `opt` to `v` and leaves everything else as those arguments left it.
   */
  lemma {:induction false} ToolLastValueWins(args: seq<string>, acc: ToolScan, opt: string, v: string)
    requires opt in ValueOptions
    requires ScanToolOptions(args, acc).Success?
    ensures ScanToolOptions(args + [opt, v], acc) == Success(WithValue(ScanToolOptions(args, acc).value, opt, v))
    decreases |args|
  {
    var all := args + [opt, v];
    if |args| == 0 {
      assert all == [opt, v];
      assert all[2..] == [];
    } else if args[0] in ValueOptions {
      assert |args| >= 2;
      assert all[2..] == args[2..] + [opt, v];
      ToolLastValueWins(args[2..], WithValue(acc, args[0], args[1]), opt, v);
    } else {
      assert all[1..] == args[1..] + [opt, v];
      var next := if args[0] in FlagOptions then WithFlag(acc, args[0]) else acc;
      ToolLastValueWins(args[1..], next, opt, v);
    }
  }

  /** An argument that is none of the tool's options is skipped: the scan goes on as if it were absent. */
  lemma ToolSkipsOther(a: string, args: seq<string>, acc: ToolScan)
    requires a !in ValueOptions && a !in FlagOptions
    ensures ScanToolOptions([a] + args, acc) == ScanToolOptions(args, acc)
  {
    assert ([a] + args)[1..] == args;
  }

  /** Arguments none of which is one of the tool's options leave the scan's state as it was. */
  lemma {:induction false} ToolSkipsOthers(args: seq<string>, acc: ToolScan)
    requires forall i :: 0 <= i < |args| ==> args[i] !in ValueOptions && args[i] !in FlagOptions
    ensures ScanToolOptions(args, acc) == Success(acc)
    decreases |args|
  {
    if |args| > 0 {
      ToolSkipsOthers(args[1..], acc);
    }
  }

  /** The replacement text of the chosen editor. */
  function Replacement(c: EditorChoice): string {
    match c
    case LiteralEditor(_, to) => to
    case RegexEditor(_, replacement) => replacement
  }

  function EditorText(c: EditorChoice): string {
    match c
    case LiteralEditor(from, _) => from
    case RegexEditor(pattern, _) => pattern
  }

  /**
   * Validation and defaults: an absent or empty `-from` ends the run, an absent `-to` means
   * deleting every occurrence, `-regex` picks the pattern editor, `-v` turns diff output on, and
   * `-n` makes the run a dry run.
   */
  function Configure(scan: ToolScan): (r: Result<Config, ToolError>)
    ensures r.Failure? <==> !Given(scan.from)
    ensures r.Failure? ==> r.error == NoReplaceText
    ensures r.Success? ==> EditorText(r.value.editor) == scan.from.value != ""
    ensures r.Success? ==> (r.value.editor.RegexEditor? <==> scan.regex)
    ensures r.Success? && scan.to.Some? ==> Replacement(r.value.editor) == scan.to.value
    ensures r.Success? && scan.to.None? ==> Replacement(r.value.editor) == ""
    ensures r.Success? ==> r.value.postMode != PostAlways
    ensures r.Success? ==> (r.value.postMode == PostNever <==> scan.dryRun)
    ensures r.Success? ==> r.value.diff.quiet == !scan.verbose
    ensures r.Success? ==> r.value.diff.command == scan.diffCommand && r.value.diff.commandArgs == scan.diffCommandArgs
  {
    if !Given(scan.from) then Failure(NoReplaceText)
    else
      var from := scan.from.value;
      var to := scan.to.GetOr("");
      var editor := if scan.regex then RegexEditor(from, to) else LiteralEditor(from, to);
      var diff := DiffSettings(!scan.verbose, scan.diffCommand, scan.diffCommandArgs, LabelBefore, LabelAfter);
      var postMode := if scan.dryRun then PostNever else PostIfModified;
      Success(Config(editor, diff, postMode))
  }

  function MapCliError<T>(r: Result<T, CliError>, wrap: CliError -> ToolError): Result<T, ToolError> {
    match r
    case Success(v) => Success(v)
    case Failure(e) => Failure(wrap(e))
  }

  /**
   * `Main` up to the start of the batch edit. `diffAvailable` is the answer of the diff
   * generator's availability probe and `loginStatus` the status code of the login request.
   */
  function Main(args: seq<string>, diffAvailable: bool, loginStatus: int): (r: Result<Session, ToolError>)
    ensures r.Success? ==> diffAvailable && loginStatus == StatusOK
    ensures !diffAvailable ==> r.Failure? && !r.error.LoginFailed?
    ensures r.Success? ==> EditorText(r.value.config.editor) != ""
    ensures r.Success? ==> r.value.config.postMode != PostAlways
    ensures r.Success? ==> var c := r.value.client.credential; c.hatenaId != "" && c.blogId != "" && c.apiKey != ""
  {
    var common :- MapCliError(ParseCommonArgs(args), e => CommonArgsError(e));
    var scan :- MapCliError(ScanToolOptions(common.rest, EmptyToolScan), e => ToolArgsError(e));
    var config :- Configure(scan);
    if !diffAvailable then Failure(DiffUnavailable)
    else
      var client :- match Login(common.credential, loginStatus)
                     case Success(c) => Success(c)
                     case Failure(s) => Failure(LoginFailed(s));
      Success(Session(client, config))
  }

  /** The tool's own arguments for the given choices; an absent `to` leaves `-to` out. */
  function ToolCommandLine(from: string, to: Option<string>, regex: bool, verbose: bool, dryRun: bool): seq<string> {
    ["-from", from]
      + (if to.Some? then ["-to", to.value] else [])
      + (if regex then ["-regex"] else [])
      + (if verbose then ["-v"] else [])
      + (if dryRun then ["-n"] else [])
  }

  lemma FlagsScan(regex: bool, verbose: bool, dryRun: bool, acc: ToolScan)
    requires !acc.regex && !acc.verbose && !acc.dryRun
    ensures ScanToolOptions((if regex then ["-regex"] else []) + (if verbose then ["-v"] else []) + (if dryRun then ["-n"] else []), acc)
         == Success(acc.(regex := regex, verbose := verbose, dryRun := dryRun))
  {
    var r := if regex then ["-regex"] else [];
    var v := if verbose then ["-v"] else [];
    var n := if dryRun then ["-n"] else [];
    var a1 := acc.(regex := regex);
    var a2 := a1.(verbose := verbose);
    assert ScanToolOptions(n, a2) == Success(a2.(dryRun := dryRun));
    assert ScanToolOptions(v + n, a1) == ScanToolOptions(n, a2) by {
      if verbose { assert (v + n)[1..] == n; } else { assert v + n == n; }
    }
    assert ScanToolOptions(r + v + n, acc) == ScanToolOptions(v + n, a1) by {
      if regex { assert (r + v + n)[1..] == v + n; } else { assert r + v + n == v + n; }
    }
  }

  /** Scanning the tool's arguments recovers every choice they encode. */
  lemma {:induction false} ToolScanRoundTrip(from: string, to: Option<string>, regex: bool, verbose: bool, dryRun: bool)
    ensures ScanToolOptions(ToolCommandLine(from, to, regex, verbose, dryRun), EmptyToolScan)
         == Success(ToolScan(Some(from), to, regex, None, None, verbose, dryRun))
  {
    var tool := ToolCommandLine(from, to, regex, verbose, dryRun);
    var flags := (if regex then ["-regex"] else []) + (if verbose then ["-v"] else []) + (if dryRun then ["-n"] else []);
    var toPart := if to.Some? then ["-to", to.value] else [];
    assert tool == ["-from", from] + toPart + flags;
    var a1 := EmptyToolScan.(from := Some(from));
    var a2 := if to.Some? then a1.(to := to) else a1;
    FlagsScan(regex, verbose, dryRun, a2);
    assert ScanToolOptions(toPart + flags, a1) == ScanToolOptions(flags, a2) by {
      if to.Some? {
        assert (toPart + flags)[2..] == flags;
        assert WithValue(a1, "-to", to.value) == a2;
      } else {
        assert toPart + flags == flags;
      }
    }
    assert tool[2..] == toPart + flags;
    assert WithValue(EmptyToolScan, "-from", from) == a1;
    assert ScanToolOptions(tool, EmptyToolScan) == ScanToolOptions(toPart + flags, a1);
  }

  lemma ToolCommandLineHasNoCommonToken(from: string, to: Option<string>, regex: bool, verbose: bool, dryRun: bool)
    requires !IsCommonToken(from)
    requires to.Some? ==> !IsCommonToken(to.value)
    ensures forall i :: 0 <= i < |ToolCommandLine(from, to, regex, verbose, dryRun)| ==>
      !IsCommonToken(ToolCommandLine(from, to, regex, verbose, dryRun)[i])
  {
    var tool := ToolCommandLine(from, to, regex, verbose, dryRun);
    var flags := (if regex then ["-regex"] else []) + (if verbose then ["-v"] else []) + (if dryRun then ["-n"] else []);
    var toPart := if to.Some? then ["-to", to.value] else [];
    assert tool == ["-from", from] + toPart + flags;
    forall i | 0 <= i < |tool|
      ensures !IsCommonToken(tool[i])
    {
      if i >= 2 + |toPart| {
        assert tool[i] == flags[i - 2 - |toPart|];
      } else if i >= 2 {
        assert tool[i] == toPart[i - 2];
      }
    }
  }

  /**
   * End to end: the entry point given a credential and the tool's options starts a run with the
   * literal or pattern editor over `from` and `to` (the empty string when `-to` is absent), diff
   * output quiet unless `-v`, and `PostNever` exactly when `-n` was given.
   */
  lemma {:induction false} MainRoundTrip(credential: Credential, from: string, to: Option<string>,
                                         regex: bool, verbose: bool, dryRun: bool)
    requires credential.hatenaId != "" && credential.blogId != "" && credential.apiKey != ""
    requires from != "" && !IsCommonToken(from)
    requires to.Some? ==> !IsCommonToken(to.value)
    ensures Main(CommonCommandLine(credential, ToolCommandLine(from, to, regex, verbose, dryRun)), true, StatusOK)
         == Success(Session(Client(credential), Config(
              if regex then RegexEditor(from, to.GetOr("")) else LiteralEditor(from, to.GetOr("")),
              DiffSettings(!verbose, None, None, LabelBefore, LabelAfter),
              if dryRun then PostNever else PostIfModified)))
  {
    var tool := ToolCommandLine(from, to, regex, verbose, dryRun);
    ToolCommandLineHasNoCommonToken(from, to, regex, verbose, dryRun);
    ParseCommonArgsRoundTrip(credential, tool);
    ToolScanRoundTrip(from, to, regex, verbose, dryRun);
  }
}

=== FILE: strings.dfy ===
/** Ordinal string helpers: strings are sequences of UTF-16 code units (`char`). */
module Strings {

  /** `t` occurs in `s` at some position (ordinal `String.Contains`). */
  predicate Contains(s: string, t: string)
    decreases |s|
  {
    t <= s || (|s| > 0 && Contains(s[1..], t))
  }

  lemma {:induction false} ContainsNeedsRoom(s: string, t: string)
    requires Contains(s, t)
    ensures |t| <= |s|
    decreases |s|
  {
    if !(t <= s) {
      ContainsNeedsRoom(s[1..], t);
    }
  }

  /** A non-empty `t` that occurs in `p + q` either occurs in `q` or starts inside `p`. */
  lemma {:induction false} ContainsPrefixed(p: string, q: string, t: string)
    requires Contains(q, t)
    ensures Contains(p + q, t)
    decreases |p|
  {
    if p == [] {
      assert p + q == q;
    } else {
      assert (p + q)[1..] == p[1..] + q;
      ContainsPrefixed(p[1..], q, t);
    }
  }

  /** `sep` placed between consecutive elements of `xs` (`string.Join`). */
  function Join(xs: seq<string>, sep: string): string
  {
    if |xs| == 0 then ""
    else if |xs| == 1 then xs[0]
    else xs[0] + sep + Join(xs[1..], sep)
  }

  /** Splits `s` at every occurrence of the character `c`; the inverse of `Join` with `[c]`. */
  function Split(s: string, c: char): (parts: seq<string>)
    ensures |parts| >= 1
    ensures forall i :: 0 <= i < |parts| ==> c !in parts[i]
    decreases |s|
  {
    if c !in s then [s]
    else
      var k := IndexOf(s, c);
      [s[..k]] + Split(s[k + 1..], c)
  }

  /** The first position of `c` in `s`. */
  function IndexOf(s: string, c: char): (k: nat)
    requires c in s
    ensures k < |s| && s[k] == c && c !in s[..k]
  {
    if s[0] == c then 0 else 1 + IndexOf(s[1..], c)
  }

  lemma {:induction false} SplitJoin(xs: seq<string>, c: char)
    requires |xs| >= 1
    requires forall i :: 0 <= i < |xs| ==> c !in xs[i]
    ensures Split(Join(xs, [c]), c) == xs
  {
    if |xs| == 1 {
    } else {
      var rest := Join(xs[1..], [c]);
      var s := xs[0] + [c] + rest;
      assert c in s by { assert s[|xs[0]|] == c; }
      var k := IndexOf(s, c);
      assert s[..|xs[0]|] == xs[0];
      assert k == |xs[0]|;
      assert s[..k] == xs[0];
      assert s[k + 1..] == rest;
      SplitJoin(xs[1..], c);
    }
  }

  /** The decimal digit character for `d`. */
  function Digit(d: nat): (c: char)
    requires d < 10
    ensures '0' <= c <= '9'
  {
    (d + '0' as int) as char
  }

  predicate IsDigit(c: char) {
    '0' <= c <= '9'
  }

  function DigitValue(c: char): (d: nat)
    requires IsDigit(c)
    ensures d < 10 && Digit(d) == c
  {
    c as int - '0' as int
  }

  /** `n` as two decimal digits, zero-padded (format specifiers `MM`, `dd`, `hh`, `mm`, `ss`). */
  function Pad2(n: nat): (s: string)
    requires n < 100
    ensures |s| == 2
  {
    [Digit(n / 10), Digit(n % 10)]
  }

  /** `n` as four decimal digits, zero-padded (format specifier `yyyy`). */
  function Pad4(n: nat): (s: string)
    requires n < 10000
    ensures |s| == 4
  {
    Pad2(n / 100) + Pad2(n % 100)
  }

  predicate DigitsAt(s: string, i: nat, n: nat)
    requires i + n <= |s|
  {
    forall k :: i <= k < i + n ==> IsDigit(s[k])
  }

  /** The value of the two digits at `i`. */
  function Read2(s: string, i: nat): nat
    requires i + 2 <= |s| && IsDigit(s[i]) && IsDigit(s[i + 1])
  {
    10 * DigitValue(s[i]) + DigitValue(s[i + 1])
  }

  /** The value of the four digits at `i`. */
  function Read4(s: string, i: nat): nat
    requires i + 4 <= |s| && IsDigit(s[i]) && IsDigit(s[i + 1]) && IsDigit(s[i + 2]) && IsDigit(s[i + 3])
  {
    100 * Read2(s, i) + Read2(s, i + 2)
  }

  lemma DigitRoundTrip(d: nat)
    requires d < 10
    ensures IsDigit(Digit(d)) && DigitValue(Digit(d)) == d
  {
  }

  /** Zero-padding loses nothing: reading the two digits back gives the number. */
  lemma {:induction false} Pad2RoundTrip(n: nat, s: string, i: nat)
    requires n < 100 && i + 2 <= |s| && s[i..i + 2] == Pad2(n)
    ensures IsDigit(s[i]) && IsDigit(s[i + 1]) && DigitsAt(s, i, 2) && Read2(s, i) == n
  {
    assert s[i] == Pad2(n)[0] && s[i + 1] == Pad2(n)[1];
    DigitRoundTrip(n / 10);
    DigitRoundTrip(n % 10);
  }

  /** Zero-padding loses nothing: reading the four digits back gives the number. */
  lemma {:induction false} Pad4RoundTrip(n: nat, s: string, i: nat)
    requires n < 10000 && i + 4 <= |s| && s[i..i + 4] == Pad4(n)
    ensures IsDigit(s[i]) && IsDigit(s[i + 1]) && IsDigit(s[i + 2]) && IsDigit(s[i + 3]) && DigitsAt(s, i, 4)
    ensures Read4(s, i) == n
  {
    assert s[i..i + 2] == Pad2(n / 100) && s[i + 2..i + 4] == Pad2(n % 100);
    Pad2RoundTrip(n / 100, s, i);
    Pad2RoundTrip(n % 100, s, i + 2);
  }
}

=== FILE: wrappers.dfy ===
/** Failure-compatible result types shared by every module of the model. */
module Wrappers {

  /** A value that may be absent; stands for a .NET reference that may be null. */
  datatype Option<+T> = None | Some(value: T) {
    predicate IsFailure() {
      None?
    }

    function PropagateFailure<U>(): Option<U>
      requires None?
    {
      None
    }

    function Extract(): T
      requires Some?
    {
      value
    }

    function GetOr(default: T): T {
      match this
      case Some(v) => v
      case None => default
    }
  }

  /** The outcome of an operation that may raise an exception in the source. */
  datatype Result<+R, +E> = Success(value: R) | Failure(error: E) {
    predicate IsFailure() {
      Failure?
    }

    function PropagateFailure<U>(): Result<U, E>
      requires Failure?
    {
      Failure(error)
    }

    function Extract(): R
      requires Success?
    {
      value
    }
  }
}
